=== FILE: README.md ===
# CropX backend decision logic in Dafny

This project models the decision logic of the CropX farm-management backend.
It is an Express/Mongoose service that offers:

- a maize-farming AI assistant;
- user sign-up and sign-in;
- a task list.

What is modelled is the part of each request handler that decides: which
checks run and in what order, which status and body come back, and what the
store holds afterwards. Each handler is a pure function over an abstract store:

- **Gemini** (`gemini.dfy`): the AI adapter `generateResponse`.
  - It builds the request text from a fixed system prompt and the question.
  - It makes up to three attempts, each raced against a 30 s timer.
  - It waits 2000 ms and then 4000 ms between attempts.
  - It returns the first reply, trimmed.
  - After three failures it returns one of four canned replies, so it never fails.
  - How each attempt settles is an oracle.
- **Conversations** (`conversation.dfy`): the conversation store as the
  assistant controller uses it. There is one conversation per user, its
  messages are only ever appended to, and a save stamps `updatedAt`.
- **Assistant** (`assistant.dfy`): `sendMessage` and `getConversation`.
  - `sendMessage` checks authentication, then the message.
  - It loads or creates the conversation and appends the trimmed question.
  - It runs a retry loop of three attempts with linear backoff, against a 25 s
    deadline that is created once.
  - An empty answer counts as an error.
  - On success it appends the answer and saves once.
  - The error caught maps to a status and a friendly text by the words its
    message contains, exactly as the code does. A corrected handler that
    also treats "timed out" as a timeout sits beside it (see Findings).
- **UserModel** (`user_model.dfy`): the user schema.
  - The setters: `trim` on the username; `lowercase` and `trim` on the e-mail.
  - The e-mail validator, the unanchored regular expression `\S+@\S+\.\S+`.
    It is given as a specification and as a scanning decision procedure, and
    the two are proved equal.
  - The required fields and the unique indexes.
- **UserRoutes** (`user_routes.dfy`): the `validateInput` middleware and the
  sign-up and sign-in handlers.
  - Conflict detection and the conflict message, as the code words it; the
    corrected message sits beside it (see Findings).
  - The request path, which decides the validation rules; only the exact
    path "/signup" gets the sign-up rules (see Findings).
  - The uniform "Invalid credentials" reply.
  - The user view, which never includes the password hash.
- **TaskModel** (`task_model.dfy`): the task schema. It covers the required,
  trimmed `name`, the required `dueDate` and the defaults, and what an update does to a task.
- **TaskRoutes** (`task_routes.dfy`): the task routes.
  - List, newest first.
  - Create, which generates an id when none is sent.
  - Update and delete, both behind the object-id format check.
  - The mapping of errors to 400/404/500.
- **Strings** and **Common**: JavaScript's `trim` (over the ECMAScript
  whitespace set), `includes` and ASCII `toLowerCase` on `seq<char>`; `Option`,
  `Sum` and `Repeat`.

Everything the handlers wait on is a parameter:

- the AI provider and the timers, as per-attempt outcome oracles plus a deadline index;
- `Math.random`, as a real in [0, 1);
- bcrypt `hash` and `compare`, as functions;
- JWT signing, as a token string plus a fault flag;
- `ObjectId.isValid`, as a predicate;
- the clock and the ids the database hands out, as values;
- database and save faults, as flags.

### Behaviour kept as the code has it

- **Error classification, conflict message and validator path as written.**
  `sendMessage` and sign-up reply exactly as the code does, including the
  three defects listed under Findings. The corrected versions
  (`Assistant.IntendedSendMessage`, `UserRoutes.IntendedConflictMessage`,
  `UserRoutes.IntendedSignup`) are kept beside them and proved to agree
  wherever the defects do not show.
- **Route paths.** Sign-up takes the request path as sent. Every path that
  the case-insensitive, non-strict router hands to the handler is admitted,
  and the validator compares it with "/signup" exactly.
- **No save on failure.** When the AI fails, `sendMessage` never reaches
  `save`, so the user's question is not persisted. `Assistant.Exchange`
  leaves the store unchanged on every non-200 reply.
- **Empty adapter reply.** A provider reply that trims to the empty string is
  returned by the adapter as `""`, not replaced by a fallback.
  `Gemini.Generate` returns it, and the controller then turns it into an
  error (`Assistant.Conclude`).
- **Setters in queries.** The sign-up and sign-in lookups apply the schema
  setters to the queried values (Mongoose casts query filters through the
  schema). `UserRoutes.Collides` and `UserRoutes.FindByUsername` query with
  the normalised values.
- **Duplicate task id.** A supplied `_id` already in use is a duplicate-key
  error. That error is not a `ValidationError`, so the reply is the 500
  handler's.
- **Update validators** run only on the fields that are sent. An empty
  `dueDate` or an all-whitespace `name` fails `required`. A body value that
  cannot be cast to its field's type is a `CastError`, which the route reports
  as 400 "Invalid task ID".
- **Token failure after sign-up.** If signing the token fails after the save,
  the account exists but the reply is a 500.

## Model

| member | source | states |
|---|---|---|
| Gemini.QuestionRoundTrip | backend/config/gemini.js:29-48 | The request text is the system prompt, the question tag and the question. The question can be read back from it, so distinct questions give distinct requests. |
| Gemini.FallbackResponse | backend/config/gemini.js:75-83 | For every random draw in [0, 1), the reply is one of the four fixed strings and is never empty. |
| Gemini.FallbackIgnoresPrompt | backend/config/gemini.js:75-83 | The canned reply depends on the random draw only, never on the question. |
| Gemini.GenerateFrom | backend/config/gemini.js:42-71 | From a given attempt on: every attempt sends the same request; every attempt but the last failed; the waits are `1000*2^k` after each failed attempt k. The run falls back exactly when no attempt up to the third replied, and then it made the third attempt and returns the fallback. Otherwise it returns the reply of its last attempt. |
| Gemini.Generate | backend/config/gemini.js:28-73 | The adapter makes between 1 and 3 attempts, all with the same request text, and waits 2000 ms and then 4000 ms between them. It falls back if and only if all three attempts failed, and then returns a pool string. Otherwise it returns the trimmed reply of the first attempt that succeeded. |
| Gemini.FirstBackoffs | backend/config/gemini.js:67-70 | The exponential schedule from attempt 1 is 2000 ms, then 4000 ms. |
| Gemini.FailureKindIrrelevant | backend/config/gemini.js:44-59 | A timer win and a provider error are handled alike. Two outcome sequences that agree on which attempts replied, and with what, give the same run. |
| Gemini.FirstReplyWins | backend/config/gemini.js:56-57 | If the first attempt replies, the adapter makes one call, does not wait, and returns the trimmed reply. |
| Gemini.AlwaysTimingOut | backend/config/gemini.js:42-65 | A provider that always times out gets three calls and waits of 2000 and 4000 ms, and a fallback reply comes back. |
| Gemini.GenerateTimeBound | backend/config/gemini.js:7-70 | The adapter waits at most 6000 ms in total. With each attempt capped at 30 s, it settles within 96 s. |
| Conversations.LoadOrCreate | backend/controllers/assistantController.js:36-45 | Returns the stored conversation of the user, or else a fresh empty, unsaved one bound to that user. |
| Conversations.Append | backend/controllers/assistantController.js:48-52 | Appending keeps every earlier message in order and puts the new message last. |
| Conversations.Persist | backend/controllers/assistantController.js:86 | A save stores the conversation under its user, stamped with `updatedAt`, and changes no other user's conversation. |
| Conversations.FetchLatest | backend/controllers/assistantController.js:114-116 | The lookup finds a conversation exactly when the user has one stored. |
| Conversations.AppendPersistFetch | backend/controllers/assistantController.js:80-91 | After an append and a save, reading back gives the earlier messages followed by the new one, which is last. |
| Assistant.RetryFrom | backend/controllers/assistantController.js:58-73 | The loop from a given attempt: each attempt hands over the same message; all attempts but the last failed; the waits are `1000*(k+1)` after each failed attempt k. When the loop ends without an answer, the last attempt was the third and `lastError` is its error. |
| Assistant.AskWithRetry | backend/controllers/assistantController.js:7-73 | At most three attempts, each with the untrimmed message. The loop stops at the first attempt that resolves. The waits are 1000 ms and then 2000 ms, never after the last attempt. `lastError` is the error of the attempt before the one that answered, or of the third attempt. |
| Assistant.FirstLinearDelays | backend/controllers/assistantController.js:69-71 | The linear schedule from attempt 0 is 1000 ms, then 2000 ms. |
| Assistant.Conclude | backend/controllers/assistantController.js:75-77 | The outcome is a success if and only if an answer is present and non-empty. Otherwise the error is `lastError`, or "Failed to get AI response" when there is none. |
| Assistant.DeadlineIsFinal | backend/controllers/assistantController.js:30-73 | The deadline promise is created once. Once it wins an attempt that had no answer before it, all three attempts run, both waits happen, and the request fails with the deadline's error. |
| Assistant.RetryCannotRecover | backend/controllers/assistantController.js:58-64 | The adapter never rejects. So either the first attempt answers, or the deadline won it and the loop fails: a retry never helps. |
| Assistant.ErrorStatus | backend/controllers/assistantController.js:97-100 | The status is 504 if and only if the message contains "timeout", 503 if and only if it contains "AI service" but not "timeout", and 500 if and only if it contains neither. |
| Assistant.FriendlyMessage | backend/controllers/assistantController.js:134-142 | The text is the "taking longer" one if and only if the message contains "timeout", the "unavailable" one if and only if it contains "AI service" but not "timeout", and the generic one if and only if it contains neither. |
| Assistant.ErrorClassification | backend/controllers/assistantController.js:97-142 | The status and the friendly text always agree: the "taking longer" text exactly with 504, the "unavailable" text exactly with 503, the generic text exactly with 500. |
| Assistant.DeadlineErrorIs500 | backend/controllers/assistantController.js:31-100 | As written, "Operation timed out" contains no "timeout", so a request that ran out of time gets status 500 and the generic text. |
| Assistant.IntendedClassification | backend/controllers/assistantController.js:97-142 | Corrected classification: the deadline's error gets 504 and the "taking longer" text. Every message without "timed out" is classified as the code does. Status and text still agree. |
| Assistant.Exchange | backend/controllers/assistantController.js:34-94 | The `try` block. A failure leaves the store unchanged and hands on the error of the step that failed: the load fault, the loop's concluded error, or the save fault. It succeeds if and only if loading worked, the answer is non-empty and the save worked. On success the user's messages grow by exactly the trimmed question and then the answer, `messageId` is the id of the last stored message, `updatedAt` is set and no other user changes. |
| Assistant.SendMessage | backend/controllers/assistantController.js:10-108 | The status is one of 200, 400, 401, 500, 503, 504. The reply is 401 if and only if the user id is missing or invalid, whatever the message, and 400 if and only if the user is authenticated and the message is missing or blank; no conversation is touched on those paths. The adapter gets the untrimmed message. Otherwise the reply is 200 exactly when the exchange answered, and a caught error gets the status and text of the as-written classification of its message. On 200 the answer is non-empty and `messageId` is the id of the message now last in the user's conversation. |
| Assistant.IntendedSendMessage | backend/controllers/assistantController.js:94-106 | Corrected handler: the same store, the same retry loop and the same 200, 400 and 401 replies as `sendMessage`; a caught error is classified with "timed out" recognised as a timeout. |
| Assistant.AuthBeforeMessage | backend/controllers/assistantController.js:15-28 | Without authentication, the reply and the store do not depend on the message. |
| Assistant.GetConversation | backend/controllers/assistantController.js:110-131 | A storage fault gives 500 with the history error. Otherwise the reply is 200 with the user's messages and `updatedAt`, or an empty list for a user with no conversation. |
| Assistant.ChatThenHistory | backend/controllers/assistantController.js:80-122 | After a successful chat, the history ends with the trimmed question and then the answer, and the reply's `messageId` is the id of that last message. |
| Assistant.DeadlineScenario | backend/controllers/assistantController.js:30-106 | The deadline wins the first attempt with the real adapter behind the race. As written, the request then fails after three attempts and both waits with 500 and the generic text, and nothing is stored. |
| Assistant.IntendedDeadlineScenario | backend/controllers/assistantController.js:30-106 | In the same situation the corrected handler replies 504 with the "taking longer" text and stores nothing. |
| Assistant.FallbackReachesUser | backend/controllers/assistantController.js:58-92 | With the real adapter behind the first race, every provider call failing inside it and the deadline not yet fired, the adapter's canned reply comes back as a 200 after one attempt, is one of the four fallback strings, and is saved as the assistant's message, last in the user's conversation. |
| Strings.Trim | backend/models/task.model.js:7 | `trim` returns a piece of the text that has only whitespace before and after it and none at its own ends; by `Strings.TrimUnique` that piece is unique. |
| Strings.TrimUnique | backend/controllers/assistantController.js:23 | Any whitespace-framed piece without whitespace at its ends is what `trim` returns. |
| Strings.TrimTight | backend/models/task.model.js:7 | The result of `trim` has no whitespace at either end. |
| Strings.TrimEmpty | backend/controllers/assistantController.js:23 | `trim` gives the empty string exactly when every character is whitespace. |
| Strings.TrimIdempotent | backend/models/task.model.js:7 | Trimming twice is trimming once. |
| Strings.IncludesCorrect | backend/controllers/assistantController.js:98 | `includes` holds exactly when the word occurs at some position. |
| Strings.ToLower | backend/models/user.model.js:16 | The result has the same length, no upper-case ASCII letter, each upper-case letter replaced by its lower-case partner and every other character unchanged. |
| UserModel.NormalizeUsername | backend/models/user.model.js:6-11 | The stored username is the trimmed piece of the one sent: only whitespace around it in the original, none at its ends. |
| UserModel.NormalizeEmail | backend/models/user.model.js:12-17 | The stored e-mail is the trimmed piece of the lower-cased address, and holds no upper-case letter. |
| UserModel.NormalizeIdempotent | backend/models/user.model.js:6-17 | Normalising a normalised username or e-mail changes nothing. |
| UserModel.RegexMatchesAnchor | backend/models/user.model.js:21 | The regular expression matches exactly when some `@` has a non-space before it, a `.` after it with only non-spaces between, and a non-space after the dot. |
| UserModel.IsValidEmail | backend/models/user.model.js:19-22 | The scanning validator accepts a text if and only if the unanchored regular expression finds a match in it. |
| UserModel.ValidEmailHasAt | backend/models/user.model.js:21 | Every e-mail the schema accepts passes the route's `'@'` check. |
| UserModel.AtWithoutDot | backend/models/user.model.js:21 | The converse fails: `a@b` contains `@`, is unchanged by normalisation, and is refused by the schema. |
| UserModel.LowerValidity | backend/models/user.model.js:16-21 | Lower-casing never changes whether the validator accepts an e-mail. |
| UserModel.TrimValidity | backend/models/user.model.js:17-21 | Trimming never changes whether the validator accepts an e-mail. |
| UserModel.NormalizePreservesValidity | backend/models/user.model.js:12-22 | The validator gives the same verdict before and after the e-mail setters. |
| UserRoutes.ValidateInput | backend/routes/user.route.js:8-30 | The username error appears if and only if the username is missing or shorter than 3. On `/signup`: the e-mail error if and only if the e-mail is missing or has no `@`; the password-length error if and only if the password is missing or shorter than 6. On other paths: the password-required error if and only if there is no password. Messages come in the order username, e-mail, password, each at most once. |
| UserRoutes.SigninIgnoresEmail | backend/routes/user.route.js:25-29 | Off the sign-up path the e-mail never affects validation. |
| UserRoutes.ValidatedFieldsPresent | backend/routes/user.route.js:31-39 | A body that passes validation has a username of length at least 3 and a password, and on `/signup` an e-mail with `@` and a password of length at least 6. |
| UserRoutes.ViewHidesPassword | backend/routes/user.route.js:84-89 | The user object in a reply does not depend on the stored hash. |
| UserRoutes.FirstIndex | backend/routes/user.route.js:48-53 | The lookup returns the first user that matches, or none when no user matches. |
| UserRoutes.ConflictMessage | backend/routes/user.route.js:58-60 | As written: "Username is not available" if and only if the existing user's username equals the username exactly as sent, otherwise "Email is already registered". |
| UserRoutes.IntendedConflictNamesCollision | backend/routes/user.route.js:55-61 | Corrected conflict message: it says "Username is not available" if and only if the usernames collided. When it says "Email is already registered", the e-mails collided. |
| UserRoutes.ConflictMessageMisnames | backend/routes/user.route.js:58-60 | As written, a username sent with a leading space collides on the username, yet the reply says the e-mail is taken, though it is not. |
| UserRoutes.ConflictMessagesAgreeOnTrimmed | backend/routes/user.route.js:58-60 | The as-written and the corrected messages agree whenever the username sent has no surrounding whitespace. |
| UserRoutes.Register | backend/routes/user.route.js:43-106 | The status is 201, 409 or 500. The reply is 409 if and only if the lookup finds a colliding user, with the as-written conflict message for the first one found. A user is appended if and only if there is no conflict, the schema admits the normalised user and the save works. The reply is 201 if and only if the user was appended and the token was signed, and its user object is the new user's view. |
| UserRoutes.Signup | backend/routes/user.route.js:8-106 | For every request path the router sends to the sign-up handler (any letter case, an optional trailing slash), the reply is 400 if and only if the validator fails on that path, with its error list and no change. Otherwise the username and password are present and the result is the handler's on the fields sent, with an absent e-mail read as empty. Only on the exact path "/signup" does getting past the validator guarantee an e-mail containing `@` and a password of at least six characters. |
| UserRoutes.SlashBypassesSignupRules | backend/routes/user.route.js:18-29 | As written, "/signup/" reaches the sign-up handler, yet a body with a one-character password that "/signup" refuses with the password-length error passes the validator there and goes on to the handler. |
| UserRoutes.IntendedSignup | backend/routes/user.route.js:18-24 | Corrected sign-up: on every path that reaches the handler, the reply is 400 if and only if the sign-up rules fail; anything else, and every new account, comes with an e-mail containing `@` and a password of at least six characters. |
| UserRoutes.IntendedSignupAgrees | backend/routes/user.route.js:43-106 | On the exact path "/signup" the corrected and the as-written sign-up give the same result. |
| UserRoutes.RegisterKeepsUnique | backend/routes/user.route.js:46-80 | The handler never saves a user whose normalised username or e-mail is already taken, so stored usernames and e-mails stay unique. |
| UserRoutes.SignupKeepsUnique | backend/models/user.model.js:6-17 | On every path that reaches the sign-up handler, sign-up keeps usernames and e-mails unique across stored users. |
| UserRoutes.SchemaRefusalIs500 | backend/routes/user.route.js:74-104 | An e-mail with an `@` but no dot passes the route and is refused by the schema at save time, which gives 500, not 400. |
| UserRoutes.Signin | backend/routes/user.route.js:109-161 | Sign-in never changes the users. The status is 200, 400, 401 or 500. It is 400 if and only if validation fails, and then the body carries the validator's errors and "Validation failed". It is 401 "Invalid credentials" if and only if, with no lookup fault, the username is unknown or the password does not match. It is 500 "Internal server error" if and only if validation passes and the lookup fails, or the user is found, the password matches and signing the token fails. It is 200 if and only if validation passes, neither step fails, the user is found and the password matches; the session then carries that user's view and the token. |
| UserRoutes.SigninUniform | backend/routes/user.route.js:115-129 | An unknown username and a wrong password get the identical 401 reply. |
| UserRoutes.FindAppended | backend/routes/user.route.js:114 | A username held only by the user appended last is found at the end. |
| UserRoutes.SigninFinds | backend/routes/user.route.js:123-151 | A valid body whose user is found and whose password matches signs in with that user's view. |
| UserRoutes.SignupThenSignin | backend/routes/user.route.js:43-151 | On every path that reaches the sign-up handler, signing in with the credentials of a fresh account finds that account. |
| TaskModel.TrimName | backend/models/task.model.js:4-8 | A name is present after the setter exactly when one was sent, and then it is the trimmed piece of the name sent; it is empty exactly when the name sent was all whitespace. |
| TaskModel.CreateErrors | backend/models/task.model.js:4-12 | A new task fails on `_id` if and only if its id is malformed. It fails on `name` if and only if the name is missing or all whitespace, and on `dueDate` if and only if the date is missing or empty. |
| TaskModel.NewTask | backend/models/task.model.js:13-25 | A new task keeps a sent `description`, `resources` and `isCompleted`, and otherwise has "", no resources and false. Its name is trimmed, its due date is as sent, and both timestamps are the creation time. |
| TaskModel.PatchErrors | backend/routes/task.route.js:50-58 | An update fails validation only on fields it sends: `name` if and only if it is all whitespace, `dueDate` if and only if it is empty. |
| TaskModel.ApplyPatch | backend/routes/task.route.js:50-58 | An update takes every field it sends, with the name trimmed. It keeps every field it does not send, the id and `createdAt`, and moves `updatedAt`. |
| TaskModel.PatchIdempotent | backend/routes/task.route.js:50-58 | Sending the same update twice has the effect of sending it once. |
| TaskModel.NewTaskConforms | backend/models/task.model.js:4-12 | A new task that passes validation has a non-empty trimmed name and a non-empty due date. |
| TaskModel.PatchConforms | backend/models/task.model.js:4-12 | A validated update keeps a conforming task conforming. |
| TaskRoutes.CreateId | backend/routes/task.route.js:29-31 | A supplied non-empty `_id` is kept; otherwise the generated id is used. |
| TaskRoutes.Create | backend/routes/task.route.js:26-45 | The status is 201, 400 or 500, and the store changes only on 201. The reply is 400 if and only if validation fails, with the failing paths. It is 201 if and only if the task is valid, its id is unused and the save works; the new task is then stored under its id and returned. |
| TaskRoutes.Update | backend/routes/task.route.js:48-77 | A malformed id gives 400 "Invalid task ID format"; then a cast failure gives 400 "Invalid task ID"; then a validation failure gives 400 with the failing paths; then a database fault gives 500 "Something went wrong!". Only a 200 changes the store. The reply is 404 if and only if all checks pass and the task is absent. It is 200 if and only if all checks pass and the task is present, and then only that task changes and the updated task is returned. |
| TaskRoutes.Delete | backend/routes/task.route.js:80-101 | A malformed id gives 400 "Invalid task ID format"; a database fault on a well-formed id gives 500 "Something went wrong!". The reply is 404 "Task not found" if and only if the id is well-formed and absent. It is 204 if and only if the task is present, and then exactly that task is removed and every other is kept. |
| TaskRoutes.OperationsKeepWellKeyed | backend/routes/task.route.js:26-95 | Create, update and delete keep every task filed under its own id. |
| TaskRoutes.CreateThenDelete | backend/routes/task.route.js:26-95 | Deleting a task just created restores the store, and in the original store that id is absent (404). |
| TaskRoutes.CreateDefaults | backend/models/task.model.js:13-24 | A create with no id and only a name and a due date succeeds under the generated id, with the trimmed name and every default. |
| TaskRoutes.Insert | backend/routes/task.route.js:18 | The result holds the tasks of the list and the new task, each as many times as before: the multisets agree. |
| TaskRoutes.InsertSorted | backend/routes/task.route.js:18 | Insertion keeps a newest-first list newest first. |
| TaskRoutes.InsertDistinct | backend/routes/task.route.js:18 | Inserting a task whose id is not yet listed keeps ids distinct. |
| TaskRoutes.ListTasks | backend/routes/task.route.js:18 | The list holds every stored task exactly once, ordered by `createdAt`, newest first. |
| TaskRoutes.ListRoute | backend/routes/task.route.js:16-23 | A fault gives 500 "Something went wrong!". Otherwise the reply is 200 with exactly the stored tasks, newest first, without duplicates. |
| TaskRoutes.ListHeadIsNewest | backend/routes/task.route.js:18 | The first task listed is at least as new as every stored task. |

## Left out

- Timers, `Promise.race` and `setTimeout` scheduling are concurrency. Each
  attempt's outcome is an oracle. The controller's 25 s deadline is the index
  of the first attempt it wins, and every later attempt fails with it.
- The time of each attempt is not modelled. `Gemini.GenerateTimeBound` bounds
  it using the 30 s timer as the cap.
- The Gemini SDK client, its model settings and its API key belong to a
  foreign library. The reply oracle stands for the client.
- `Math.random` is a real in [0, 1). Multiplying by 4 is exact in binary
  floating point, so the floor is faithful.
- bcrypt `hash` and `compare` are uninterpreted functions. JWT signing
  (`backend/utils/index.js`) is a token string plus a fault flag.
- Mongoose internals are abstracted:
  - `ObjectId.isValid` is a predicate;
  - `$or` and `findOne` are a first-match search in insertion order;
  - `save`, `findByIdAndUpdate` and `findByIdAndDelete` are map updates;
  - database faults are flags;
  - the conversation schema file is not part of this model.
- A `_id` sent inside an update body is not modelled: a patch carries only the
  schema's own fields.
- Body values of the wrong JSON type are not modelled. The one exception is
  an update value that cannot be cast, which is a flag. Every other value is a
  string, a string list or a boolean.
- Logging, `console.error` and the fields that depend on `NODE_ENV`
  (`stack`, `details`, `error`) are not modelled.
- The `success` flag in the JSON bodies is not modelled: it is determined by
  the status.
- Server bootstrap (`backend/index.js`), the assistant router, the
  authentication middleware and the inventory routes and model are not part
  of this model.
- The 20 s `AI_RESPONSE_TIMEOUT` constant is declared but never read by the
  code, so the model has no counterpart; the 25 s deadline is represented by
  the index of the first attempt it wins, not by its length.
- Strings.ToLower: lower-cases ASCII letters only. JavaScript's
  `toLowerCase` also maps non-ASCII letters. Whitespace, `@` and `.` are
  unaffected either way, which is all the proofs rely on.
- UserRoutes.ValidateInput: string length is counted in `char`s of the model,
  whereas JavaScript counts UTF-16 code units.
- UserRoutes.Register: only the lookup, save and token faults are modelled.
  A failure of `bcrypt.hash` also gives 500, but it is not a separate flag.
- Assistant.Exchange: does not model what happens to the process when the
  deadline fires before the first `Promise.race`. The 25 s deadline promise is
  created before the conversation lookup
  (backend/controllers/assistantController.js:30-32). It first gets a handler
  inside `Promise.race` (line 62). When `findOne` rejects, control jumps to
  the catch (line 94) and line 62 is never reached. When `findOne` resolves
  only after more than 25 s, the deadline rejects before line 62 attaches a
  handler. Either way the rejection goes unhandled. `backend/index.js` installs
  no `unhandledRejection` handler, so on Node 15 or later that ends the
  server process. The model states only the reply to the request itself; the
  rest of the server's life is outside it.
- UserRoutes.Signup: an e-mail absent from a body sent to a variant of the
  sign-up path is read as the empty string. The lookup then queries the
  e-mail as `undefined`, which the driver sends as `null`; no stored user has
  an empty or a missing e-mail, and the schema's `required` refuses both, so
  the two readings agree on every store the schema admits.
- TaskRoutes.Delete: the `CastError` branch (backend/routes/task.route.js:89-91)
  has no counterpart. The only value `findByIdAndDelete` casts is the id, and
  `validateObjectId` (lines 8-13) has already checked it with
  `ObjectId.isValid`. The model takes every id that check accepts to be one
  the cast accepts. `Update` keeps its cast flag, because it also casts the
  body's values.
- Gemini.Generate: the text of a reply is taken as given. `response.text()`
  throwing, for example on a blocked response, counts as a provider error.

## Findings

| source | as written | input that shows it | evidently intended | confidence | as-written member | corrected member |
|---|---|---|---|---|---|---|
| backend/controllers/assistantController.js:97-100 | The status is 504 only if the error message contains "timeout", but the 25 s deadline rejects with "Operation timed out" (line 31). | The deadline wins the first attempt, so the controller's retry loop fails with "Operation timed out". The reply is 500 with "An error occurred while processing your message." | 504 with "Our assistant is taking longer than usual to respond." for the deadline's own error. | not executed; high | Assistant.DeadlineScenario | Assistant.IntendedDeadlineScenario |
| backend/routes/user.route.js:58-60 | The conflict message compares the stored username with the username exactly as sent. The lookup on lines 48-53 matched it after the `trim` setter. | An existing user "bob" with e-mail "bob@x.io", and a sign-up of " bob" with e-mail "al@x.io". The lookup finds "bob" by username, but the reply says "Email is already registered". | "Username is not available" whenever the usernames collided. | not executed; medium: depends on Mongoose applying the schema setters to query filters | UserRoutes.ConflictMessageMisnames | UserRoutes.IntendedConflictNamesCollision |
| backend/routes/user.route.js:18 | The validator applies the sign-up rules only when `req.path` is exactly "/signup". The router is case-insensitive and ignores a trailing slash, so "/signup/" and "/SignUp" reach the sign-up handler with the sign-in rules. | A sign-up to "/signup/" with username "bob", e-mail "b@x.io" and password "a". "/signup" refuses it with "Password must be at least 6 characters", but here it passes the validator, and the handler saves an account with a one-character password. | The sign-up rules for every request the sign-up handler serves: the e-mail check and the six-character password minimum. | not executed; high: Express routers are case-insensitive and non-strict by default | UserRoutes.SlashBypassesSignupRules | UserRoutes.IntendedSignup |

=== FILE: assistant.dfy ===
/**
 * The assistant controller: `sendMessage` and `getConversation`.
 *
 * A chat request is checked for an authenticated user and then for a
 * non-blank message; the user's conversation is loaded (or started) and the
 * trimmed message appended; the AI adapter is raced against a 25 s deadline
 * in a loop of at most three attempts with linear backoff; an empty or
 * missing answer is an error; on success the AI message is appended and the
 * conversation saved once; any error becomes a 504, 503 or 500 by looking
 * for words in its message.
 *
 * The deadline timer is created once, before the loop, so once it has fired
 * it has already rejected, and every later race loses to it at once. It is
 * modelled as `deadlineAt`: the first attempt (0-based) that the deadline
 * wins; it and every later attempt fail with the deadline's error. How the
 * other attempts settle is an oracle `race(attempt)`.
 */
module Assistant {
  import opened Common
  import Strings
  import Gemini
  import opened Conversations

  /** Attempts after the first: three attempts in all. */
  const MaxRetries: nat := 2
  /** Step of the linear backoff between attempts. */
  const RetryDelayMs: nat := 1000

  const DeadlineError: string := "Operation timed out"
  const NoResponseError: string := "Failed to get AI response"
  const AuthError: string := "User authentication required"
  const MessageError: string := "Message is required"
  const HistoryError: string := "Failed to load conversation history"

  const TimeoutText: string := "Our assistant is taking longer than usual to respond. Please try again."
  const UnavailableText: string := "Our AI service is currently unavailable. Please try again later."
  const GenericText: string := "An error occurred while processing your message."

  /** How the race of one attempt settles: the adapter's text, or the
      message of the error that rejected the race. */
  datatype Settled = Ok(text: string) | Err(message: string)

  /** What the retry loop leaves behind: the answer it broke out with (if
      any), the last error it caught (if any), the message handed to the
      adapter on each attempt, and the waits between attempts. */
  datatype Retry = Retry(response: Option<string>, lastError: Option<string>, prompts: seq<string>, delays: seq<nat>)

  /** How attempt `attempt` settles once the deadline is taken into account. */
  function RaceAt(race: nat -> Settled, deadlineAt: nat, attempt: nat): Settled
  {
    if deadlineAt <= attempt then Err(DeadlineError) else race(attempt)
  }

  /** The waits after failed attempts `attempt`, `attempt + 1`, ...: the
      wait after attempt k is `1000 * (k + 1)` ms. */
  function LinearDelays(attempt: nat, count: nat): seq<nat>
    decreases count
  {
    if count == 0 then [] else [RetryDelayMs * (attempt + 1)] + LinearDelays(attempt + 1, count - 1)
  }

  /** The retry loop from attempt `attempt` (0-based) on, with `lastError`
      the error caught so far. */
  function RetryFrom(message: string, race: nat -> Settled, deadlineAt: nat, attempt: nat, lastError: Option<string>): (r: Retry)
    requires attempt <= MaxRetries
    ensures 1 <= |r.prompts| <= MaxRetries + 1 - attempt
    ensures r.prompts == Repeat(message, |r.prompts|)
    ensures r.delays == LinearDelays(attempt, |r.prompts| - 1)
    ensures forall k :: attempt <= k < attempt + |r.prompts| - 1 ==> RaceAt(race, deadlineAt, k).Err?
    ensures r.response.Some? ==> RaceAt(race, deadlineAt, attempt + |r.prompts| - 1) == Ok(r.response.value)
    ensures r.response.None? ==>
      && attempt + |r.prompts| - 1 == MaxRetries
      && RaceAt(race, deadlineAt, MaxRetries).Err?
      && r.lastError == Some(RaceAt(race, deadlineAt, MaxRetries).message)
    ensures r.response.Some? && |r.prompts| == 1 ==> r.lastError == lastError
    ensures r.response.Some? && |r.prompts| > 1 ==>
      r.lastError == Some(RaceAt(race, deadlineAt, attempt + |r.prompts| - 2).message)
    decreases MaxRetries - attempt
  {
    match RaceAt(race, deadlineAt, attempt)
    case Ok(text) => Retry(Some(text), lastError, [message], [])
    case Err(e) =>
      if attempt < MaxRetries then
        var rest := RetryFrom(message, race, deadlineAt, attempt + 1, Some(e));
        Retry(rest.response, rest.lastError, [message] + rest.prompts,
              [RetryDelayMs * (attempt + 1)] + rest.delays)
      else
        Retry(None, Some(e), [message], [])
  }

  lemma FirstLinearDelays(count: nat)
    requires count <= MaxRetries
    ensures LinearDelays(0, count) == [1000, 2000][..count]
  {
    assert LinearDelays(2, 0) == [];
    assert LinearDelays(1, 1) == [2000];
    assert [1000, 2000][..1] == [1000];
  }

  /** The whole retry loop. At most three attempts are made, each handing
      the adapter the message as received (untrimmed); the loop stops at the
      first attempt whose race resolves; it waits 1000 ms after a first
      failure and 2000 ms after a second, never after the last attempt. */
  function AskWithRetry(message: string, race: nat -> Settled, deadlineAt: nat): (r: Retry)
    ensures 1 <= |r.prompts| <= MaxRetries + 1
    ensures r.prompts == Repeat(message, |r.prompts|)
    ensures r.delays == [1000, 2000][..|r.prompts| - 1]
    ensures forall k :: 0 <= k < |r.prompts| - 1 ==> RaceAt(race, deadlineAt, k).Err?
    ensures r.response.Some? ==> RaceAt(race, deadlineAt, |r.prompts| - 1) == Ok(r.response.value)
    ensures r.response.None? ==>
      && |r.prompts| == MaxRetries + 1
      && RaceAt(race, deadlineAt, MaxRetries).Err?
      && r.lastError == Some(RaceAt(race, deadlineAt, MaxRetries).message)
    ensures r.response.Some? && |r.prompts| == 1 ==> r.lastError.None?
    ensures r.response.Some? && |r.prompts| > 1 ==>
      r.lastError == Some(RaceAt(race, deadlineAt, |r.prompts| - 2).message)
  {
    var r := RetryFrom(message, race, deadlineAt, 0, None);
    FirstLinearDelays(|r.prompts| - 1);
    r
  }

  /** After the loop: a missing or empty answer is an error, carrying the
      last caught error, or a generic one if nothing was caught. */
  function Conclude(r: Retry): (s: Settled)
    ensures s.Ok? <==> r.response.Some? && r.response.value != ""
    ensures s.Ok? ==> s.text == r.response.value
    ensures s.Err? && r.lastError.Some? ==> s.message == r.lastError.value
    ensures s.Err? && r.lastError.None? ==> s.message == NoResponseError
  {
    if r.response.Some? && r.response.value != "" then Ok(r.response.value)
    else if r.lastError.Some? then Err(r.lastError.value)
    else Err(NoResponseError)
  }

  /** Once the deadline has won an attempt with no answer before it, every
      remaining attempt fails too: the loop runs out with the deadline's
      error, after all three attempts and both waits. */
  lemma DeadlineIsFinal(message: string, race: nat -> Settled, deadlineAt: nat)
    requires deadlineAt <= MaxRetries
    requires forall k :: 0 <= k < deadlineAt ==> race(k).Err?
    ensures var r := AskWithRetry(message, race, deadlineAt);
      && r.response.None?
      && r.lastError == Some(DeadlineError)
      && |r.prompts| == 3
      && r.delays == [1000, 2000]
      && Conclude(r) == Err(DeadlineError)
  {
    var r := AskWithRetry(message, race, deadlineAt);
    if r.response.Some? {
      assert false;
    }
  }

  /** The adapter never rejects, so the only error a race can end in is the
      deadline's. Then the outer retry can never help: either the first
      attempt answers, or the deadline won it and the loop fails. */
  lemma RetryCannotRecover(message: string, race: nat -> Settled, deadlineAt: nat)
    requires forall k :: race(k).Ok?
    ensures var r := AskWithRetry(message, race, deadlineAt);
      || (|r.prompts| == 1 && r.response == Some(race(0).text))
      || (deadlineAt == 0 && r.response.None? && r.lastError == Some(DeadlineError))
  {
    var r := AskWithRetry(message, race, deadlineAt);
    if 0 < deadlineAt {
      assert RaceAt(race, deadlineAt, 0).Ok?;
    } else {
      DeadlineIsFinal(message, race, deadlineAt);
    }
  }

  /** Error message to status, as `sendMessage`'s `catch` computes it: 504
      if the message mentions "timeout", else 503 if it mentions
      "AI service", else 500. */
  function ErrorStatus(message: string): (status: nat)
    ensures status == 504 <==> Mentions(message, "timeout")
    ensures status == 503 <==> !Mentions(message, "timeout") && Mentions(message, "AI service")
    ensures status == 500 <==> !Mentions(message, "timeout") && !Mentions(message, "AI service")
  {
    Strings.IncludesCorrect(message, "timeout");
    Strings.IncludesCorrect(message, "AI service");
    if Strings.Includes(message, "timeout") then 504
    else if Strings.Includes(message, "AI service") then 503
    else 500
  }

  /** `getFriendlyErrorMessage`: the text shown for an error message, by the
      same words in the same order. */
  function FriendlyMessage(message: string): (text: string)
    ensures text == TimeoutText <==> Mentions(message, "timeout")
    ensures text == UnavailableText <==> !Mentions(message, "timeout") && Mentions(message, "AI service")
    ensures text == GenericText <==> !Mentions(message, "timeout") && !Mentions(message, "AI service")
  {
    Strings.IncludesCorrect(message, "timeout");
    Strings.IncludesCorrect(message, "AI service");
    if Strings.Includes(message, "timeout") then TimeoutText
    else if Strings.Includes(message, "AI service") then UnavailableText
    else GenericText
  }

  /** `message` contains `word` somewhere. */
  ghost predicate Mentions(message: string, word: string)
  {
    exists i: nat :: Strings.OccursAt(message, word, i)
  }

  /** The status and the friendly text always agree. */
  lemma ErrorClassification(message: string)
    ensures FriendlyMessage(message) == TimeoutText <==> ErrorStatus(message) == 504
    ensures FriendlyMessage(message) == UnavailableText <==> ErrorStatus(message) == 503
    ensures FriendlyMessage(message) == GenericText <==> ErrorStatus(message) == 500
  {
  }

  /** The deadline's own message does not contain "timeout", so a request
      that ran out of time is reported as a 500 with the generic text. */
  lemma DeadlineErrorIs500()
    ensures ErrorStatus(DeadlineError) == 500
    ensures FriendlyMessage(DeadlineError) == GenericText
  {
    forall i: nat ensures !Strings.OccursAt(DeadlineError, "timeout", i) {
      if i + 7 <= |DeadlineError| {
        var w := DeadlineError[i..i + 7];
        assert w[0] == DeadlineError[i] && w[2] == DeadlineError[i + 2] && w[4] == DeadlineError[i + 4];
      }
    }
    forall i: nat ensures !Strings.OccursAt(DeadlineError, "AI service", i) {
      if i + 10 <= |DeadlineError| {
        assert DeadlineError[i..i + 10][0] == DeadlineError[i];
      }
    }
  }

  /** The intended reading of "timeout-flavoured": either spelling. */
  function TimeoutFlavoured(message: string): bool
  {
    Strings.Includes(message, "timeout") || Strings.Includes(message, "timed out")
  }

  /** The error-to-status mapping with both spellings recognised. */
  function IntendedErrorStatus(message: string): (status: nat)
    ensures status == 504 || status == 503 || status == 500
  {
    if TimeoutFlavoured(message) then 504
    else if Strings.Includes(message, "AI service") then 503
    else 500
  }

  function IntendedFriendlyMessage(message: string): string
  {
    if TimeoutFlavoured(message) then TimeoutText
    else if Strings.Includes(message, "AI service") then UnavailableText
    else GenericText
  }

  /** With both spellings recognised, the deadline's error is a 504 with the
      "taking longer" text; every message without "timed out" is classified
      exactly as the source does; status and text still agree. */
  lemma IntendedClassification(message: string)
    ensures IntendedErrorStatus(DeadlineError) == 504
    ensures IntendedFriendlyMessage(DeadlineError) == TimeoutText
    ensures !Strings.Includes(message, "timed out") ==>
      IntendedErrorStatus(message) == ErrorStatus(message)
      && IntendedFriendlyMessage(message) == FriendlyMessage(message)
    ensures IntendedFriendlyMessage(message) == TimeoutText <==> IntendedErrorStatus(message) == 504
    ensures IntendedFriendlyMessage(message) == UnavailableText <==> IntendedErrorStatus(message) == 503
    ensures IntendedFriendlyMessage(message) == GenericText <==> IntendedErrorStatus(message) == 500
  {
    assert Strings.OccursAt(DeadlineError, "timed out", 10) by {
      assert DeadlineError[10..19] == "timed out";
    }
    Strings.IncludesAt(DeadlineError, "timed out", 10);
  }

  /** The body of a chat reply. */
  datatype ChatBody = Answer(response: string, messageId: MessageId) | Failure(error: string)

  datatype ChatReply = ChatReply(status: nat, body: ChatBody)

  /** Everything a chat request depends on besides the store, the user and
      the message: the identifier check, the race oracle and deadline, the
      identifiers and times the database and clock hand out, and storage
      faults on loading and on saving. */
  datatype ChatEnv = ChatEnv(
    isValidId: UserId -> bool,
    race: nat -> Settled,
    deadlineAt: nat,
    userMessageId: MessageId,
    aiMessageId: MessageId,
    userSentAt: nat,
    aiSentAt: nat,
    savedAt: nat,
    loadFault: Option<string>,
    saveFault: Option<string>)

  /** How the work after validation ends: an answer that was saved, or the
      message of the error the handler's `catch` receives. */
  datatype Settlement = Answered(text: string, messageId: MessageId) | Caught(error: string)

  /** The outcome, the store afterwards, and the retry loop if it ran. */
  datatype Exchanged = Exchanged(outcome: Settlement, store: Store, retry: Option<Retry>)

  /** The reply, the store afterwards, and the retry loop if it ran. */
  datatype ChatResult = ChatResult(reply: ChatReply, store: Store, retry: Option<Retry>)

  /** The user id is present, non-empty and well-formed. */
  predicate Authenticated(userId: Option<UserId>, isValidId: UserId -> bool)
  {
    userId.Some? && userId.value != "" && isValidId(userId.value)
  }

  /** The message is missing or trims to nothing. */
  predicate Blank(message: Option<string>)
  {
    message.None? || Strings.Trim(message.value) == ""
  }

  /** The reply of `sendMessage`'s `catch` as written. */
  function ErrorReply(error: string): ChatReply
  {
    ChatReply(ErrorStatus(error), Failure(FriendlyMessage(error)))
  }

  /** The reply with both spellings of a timeout recognised. */
  function IntendedErrorReply(error: string): ChatReply
  {
    ChatReply(IntendedErrorStatus(error), Failure(IntendedFriendlyMessage(error)))
  }

  /** The message stored for the user's side of the exchange. */
  function UserMessage(message: string, env: ChatEnv): Message
  {
    Message(env.userMessageId, Strings.Trim(message), User, env.userSentAt)
  }

  function AiMessage(text: string, env: ChatEnv): Message
  {
    Message(env.aiMessageId, text, Ai, env.aiSentAt)
  }

  /** The `try` block of `sendMessage`: load, ask, append, save. Only a full
      success (an answer, then a save) changes the store; the user's
      question is not kept when asking or saving fails. A failure hands the
      `catch` the error of the step that failed. */
  function Exchange(store: Store, u: UserId, message: string, env: ChatEnv): (x: Exchanged)
    requires WellKeyed(store)
    ensures WellKeyed(x.store)
    ensures x.outcome.Caught? ==> x.store == store
    ensures env.loadFault.Some? <==> x.retry.None?
    ensures env.loadFault.Some? ==> x.outcome == Caught(env.loadFault.value)
    ensures x.retry.Some? ==> x.retry.value == AskWithRetry(message, env.race, env.deadlineAt)
    ensures x.retry.Some? && Conclude(x.retry.value).Err? ==>
      x.outcome == Caught(Conclude(x.retry.value).message)
    ensures x.retry.Some? && Conclude(x.retry.value).Ok? && env.saveFault.Some? ==>
      x.outcome == Caught(env.saveFault.value)
    ensures x.outcome.Answered? <==>
      x.retry.Some? && Conclude(x.retry.value).Ok? && env.saveFault.None?
    ensures x.outcome.Answered? ==>
      && x.outcome.text == Conclude(x.retry.value).text
      && x.outcome.text != ""
      && u in x.store
      && x.store[u].messages
           == LoadOrCreate(store, u).messages
              + [UserMessage(message, env), AiMessage(x.outcome.text, env)]
      && x.outcome.messageId == x.store[u].messages[|x.store[u].messages| - 1].id
      && x.store[u].updatedAt == Some(env.savedAt)
      && SameExcept(store, x.store, u)
  {
    if env.loadFault.Some? then
      Exchanged(Caught(env.loadFault.value), store, None)
    else
      var withQuestion := Append(LoadOrCreate(store, u), UserMessage(message, env));
      var retry := AskWithRetry(message, env.race, env.deadlineAt);
      match Conclude(retry)
      case Err(e) => Exchanged(Caught(e), store, Some(retry))
      case Ok(text) =>
        var withAnswer := Append(withQuestion, AiMessage(text, env));
        if env.saveFault.Some? then
          Exchanged(Caught(env.saveFault.value), store, Some(retry))
        else
          var messageId := withAnswer.messages[|withAnswer.messages| - 1].id;
          Exchanged(Answered(text, messageId), Persist(store, withAnswer, env.savedAt), Some(retry))
  }

  /** Authentication (401), then a non-blank message (400), then the
      exchange, whose caught error `classify` turns into a reply. */
  function Respond(store: Store, userId: Option<UserId>, message: Option<string>, env: ChatEnv,
                   classify: string -> ChatReply): ChatResult
    requires WellKeyed(store)
  {
    if !Authenticated(userId, env.isValidId) then
      ChatResult(ChatReply(401, Failure(AuthError)), store, None)
    else if Blank(message) then
      ChatResult(ChatReply(400, Failure(MessageError)), store, None)
    else
      var x := Exchange(store, userId.value, message.value, env);
      match x.outcome
      case Answered(text, id) => ChatResult(ChatReply(200, Answer(text, id)), x.store, x.retry)
      case Caught(e) => ChatResult(classify(e), x.store, x.retry)
  }

  /** `sendMessage`: authentication first (401), then a non-blank message
      (400), then the exchange. A caught error becomes a 504, 503 or 500 by
      the words in its message. The answer's `messageId` is the id of the
      message now last in the user's stored conversation. */
  function SendMessage(store: Store, userId: Option<UserId>, message: Option<string>, env: ChatEnv): (r: ChatResult)
    requires WellKeyed(store)
    ensures WellKeyed(r.store)
    ensures r.reply.status in {200, 400, 401, 500, 503, 504}
    ensures r.reply.status == 401 <==> !Authenticated(userId, env.isValidId)
    ensures r.reply.status == 400 <==> Authenticated(userId, env.isValidId) && Blank(message)
    ensures r.reply.status == 401 ==> r.reply.body == Failure(AuthError) && r.retry.None?
    ensures r.reply.status == 400 ==> r.reply.body == Failure(MessageError) && r.retry.None?
    ensures r.reply.status != 200 ==> r.store == store
    ensures r.retry.Some? ==> r.retry.value.prompts == Repeat(message.value, |r.retry.value.prompts|)
    ensures Authenticated(userId, env.isValidId) && !Blank(message) ==>
      var x := Exchange(store, userId.value, message.value, env);
      && r.store == x.store && r.retry == x.retry
      && (r.reply.status == 200 <==> x.outcome.Answered?)
      && (x.outcome.Caught? ==>
            r.reply == ChatReply(ErrorStatus(x.outcome.error), Failure(FriendlyMessage(x.outcome.error))))
    ensures r.reply.status == 200 ==>
      && !Blank(message)
      && r.reply.body.Answer?
      && r.reply.body.response != ""
      && userId.value in r.store
      && r.store[userId.value].messages
           == LoadOrCreate(store, userId.value).messages
              + [UserMessage(message.value, env), AiMessage(r.reply.body.response, env)]
      && r.reply.body.messageId == r.store[userId.value].messages[|r.store[userId.value].messages| - 1].id
      && SameExcept(store, r.store, userId.value)
  {
    Respond(store, userId, message, env, ErrorReply)
  }

  /** `sendMessage` with the timeout classification corrected: the same
      checks, the same exchange and the same store, and every reply but a
      caught error's is the same; a caught error is classified with both
      spellings of a timeout recognised. */
  function IntendedSendMessage(store: Store, userId: Option<UserId>, message: Option<string>, env: ChatEnv): (r: ChatResult)
    requires WellKeyed(store)
    ensures var w := SendMessage(store, userId, message, env);
      && r.store == w.store && r.retry == w.retry
      && (w.reply.status in {200, 400, 401} ==> r.reply == w.reply)
    ensures Authenticated(userId, env.isValidId) && !Blank(message) ==>
      var x := Exchange(store, userId.value, message.value, env);
      x.outcome.Caught? ==>
        r.reply == ChatReply(IntendedErrorStatus(x.outcome.error), Failure(IntendedFriendlyMessage(x.outcome.error)))
  {
    Respond(store, userId, message, env, IntendedErrorReply)
  }

  /** Authentication is checked first: without it the reply is the same
      whatever the message, and nothing is touched. */
  lemma AuthBeforeMessage(store: Store, userId: Option<UserId>, m1: Option<string>, m2: Option<string>, env: ChatEnv)
    requires WellKeyed(store)
    requires !Authenticated(userId, env.isValidId)
    ensures SendMessage(store, userId, m1, env) == SendMessage(store, userId, m2, env)
  {
  }

  /** The history endpoint's reply body. */
  datatype History = History(messages: seq<Message>, lastUpdated: Option<nat>) | HistoryFailure(error: string)

  datatype HistoryReply = HistoryReply(status: nat, body: History)

  /** `getConversation`: the user's messages, or an empty list for a user who
      has never chatted; a storage fault is a 500. */
  function GetConversation(store: Store, userId: UserId, fault: Option<string>): (r: HistoryReply)
    ensures r.status == 500 <==> fault.Some?
    ensures r.status == 500 ==> r.body == HistoryFailure(HistoryError)
    ensures r.status != 500 ==> r.status == 200 && r.body.History?
    ensures r.status == 200 && userId !in store ==> r.body.messages == [] && r.body.lastUpdated.None?
    ensures r.status == 200 && userId in store ==>
      r.body.messages == store[userId].messages && r.body.lastUpdated == store[userId].updatedAt
  {
    if fault.Some? then HistoryReply(500, HistoryFailure(HistoryError))
    else match FetchLatest(store, userId)
      case None => HistoryReply(200, History([], None))
      case Some(c) => HistoryReply(200, History(c.messages, c.updatedAt))
  }

  /** A successful chat followed by a history read: the history ends with
      the user's trimmed question and then the answer, and the reply's
      message id is the id of that last message. */
  lemma ChatThenHistory(store: Store, userId: Option<UserId>, message: Option<string>, env: ChatEnv)
    requires WellKeyed(store)
    requires SendMessage(store, userId, message, env).reply.status == 200
    ensures var r := SendMessage(store, userId, message, env);
      var h := GetConversation(r.store, userId.value, None);
      && h.status == 200
      && |h.body.messages| == |LoadOrCreate(store, userId.value).messages| + 2
      && h.body.messages[|h.body.messages| - 2] == UserMessage(message.value, env)
      && h.body.messages[|h.body.messages| - 1] == AiMessage(r.reply.body.response, env)
      && h.body.messages[|h.body.messages| - 1].id == r.reply.body.messageId
  {
  }

  /** With the real adapter behind the race (it always answers) and the
      deadline winning the first attempt, the request fails after three
      attempts and both waits, and the store is as before: the user's
      message is not kept. As written, the reply is a 500 with the generic
      text, not a timeout reply. */
  lemma DeadlineScenario(store: Store, userId: UserId, message: string, env: ChatEnv)
    requires WellKeyed(store)
    requires Authenticated(Some(userId), env.isValidId)
    requires Strings.Trim(message) != ""
    requires env.loadFault.None?
    requires forall k :: env.race(k).Ok?
    requires env.deadlineAt == 0
    ensures var r := SendMessage(store, Some(userId), Some(message), env);
      && r.reply == ChatReply(500, Failure(GenericText))
      && r.store == store
      && r.retry.Some?
      && |r.retry.value.prompts| == 3
      && r.retry.value.delays == [1000, 2000]
  {
    DeadlineIsFinal(message, env.race, env.deadlineAt);
    DeadlineErrorIs500();
  }

  /** In the same situation the corrected handler answers 504 with the
      "taking longer" text, leaving the store as before. */
  lemma IntendedDeadlineScenario(store: Store, userId: UserId, message: string, env: ChatEnv)
    requires WellKeyed(store)
    requires Authenticated(Some(userId), env.isValidId)
    requires Strings.Trim(message) != ""
    requires env.loadFault.None?
    requires forall k :: env.race(k).Ok?
    requires env.deadlineAt == 0
    ensures var r := IntendedSendMessage(store, Some(userId), Some(message), env);
      && r.reply == ChatReply(504, Failure(TimeoutText))
      && r.store == store
  {
    DeadlineIsFinal(message, env.race, env.deadlineAt);
    IntendedClassification(DeadlineError);
  }

  /** The adapter's graceful degradation seen end to end. The first race
      runs the real adapter on the message as received; every provider call
      inside it fails, and the deadline has not fired yet. The adapter then
      resolves with one of its canned replies, which the controller takes as
      the answer: the reply is a 200 carrying that text after one attempt,
      and the text is saved as the assistant's message, last in the user's
      conversation. */
  lemma FallbackReachesUser(store: Store, userId: UserId, message: string, env: ChatEnv,
                            outcome: nat -> Gemini.Attempt, random: real)
    requires WellKeyed(store)
    requires Authenticated(Some(userId), env.isValidId)
    requires Strings.Trim(message) != ""
    requires env.loadFault.None? && env.saveFault.None?
    requires 0.0 <= random < 1.0
    requires forall n :: 1 <= n <= Gemini.MaxRetries ==> !outcome(n).Reply?
    requires 0 < env.deadlineAt
    requires env.race(0) == Ok(Gemini.Generate(message, outcome, random).text)
    ensures var r := SendMessage(store, Some(userId), Some(message), env);
      && r.reply.status == 200
      && r.reply.body.Answer?
      && r.reply.body.response in Gemini.Fallbacks
      && r.retry.Some? && |r.retry.value.prompts| == 1
      && userId in r.store
      && var ms := r.store[userId].messages;
         |ms| > 0 && ms[|ms| - 1] == AiMessage(r.reply.body.response, env)
  {
    var g := Gemini.Generate(message, outcome, random);
    assert g.fellBack;
    assert g.text != "" by {
      assert g.text in Gemini.Fallbacks;
    }
    assert RaceAt(env.race, env.deadlineAt, 0) == Ok(g.text);
    var x := Exchange(store, userId, message, env);
    assert x.outcome == Answered(g.text, x.outcome.messageId);
  }
}

=== FILE: common.dfy ===
/** Small shared vocabulary: optional values, repetition and sums of delays. */
module Common {

  /** A value that may be absent: a missing request field, a lookup that found nothing. */
  datatype Option<+T> = None | Some(value: T)

  /** Total of a list of delays, in milliseconds. */
  function Sum(s: seq<nat>): nat
  {
    if |s| == 0 then 0 else s[0] + Sum(s[1..])
  }

  /** `count` copies of `x`. */
  function Repeat<T>(x: T, count: nat): (r: seq<T>)
    ensures |r| == count
    ensures forall i :: 0 <= i < count ==> r[i] == x
  {
    if count == 0 then [] else [x] + Repeat(x, count - 1)
  }
}

=== FILE: conversation.dfy ===
/**
 * Conversation storage as the assistant controller uses it: one
 * conversation per user, an ordered list of messages that is only ever
 * appended to, and a store that holds what was last saved.
 *
 * The document database is a map from user id to conversation. The
 * conversation schema file is not part of this model; the fields used here
 * are the ones the controller reads and writes.
 */
module Conversations {
  import opened Common

  type UserId = string
  type MessageId = string

  datatype Sender = User | Ai

  /** One chat message; `id` is the identifier the database gives it. */
  datatype Message = Message(id: MessageId, text: string, sender: Sender, timestamp: nat)

  /** `updatedAt` is absent until the conversation is first saved. */
  datatype Conversation = Conversation(userId: UserId, messages: seq<Message>, updatedAt: Option<nat>)

  type Store = map<UserId, Conversation>

  /** Every stored conversation is filed under its own user. */
  predicate WellKeyed(store: Store)
  {
    forall u :: u in store ==> store[u].userId == u
  }

  /** `store` and `store'` agree on every user other than `u`. */
  predicate SameExcept(store: Store, store': Store, u: UserId)
  {
    && store'.Keys - {u} == store.Keys - {u}
    && (forall v :: v in store && v != u ==> v in store' && store'[v] == store[v])
  }

  /** The conversation a chat request works on: the stored one for the user,
      or a fresh empty one bound to the user that is not yet stored. */
  function LoadOrCreate(store: Store, userId: UserId): (c: Conversation)
    ensures WellKeyed(store) ==> c.userId == userId
    ensures userId in store ==> c == store[userId]
    ensures userId !in store ==> c.messages == [] && c.updatedAt.None?
  {
    if userId in store then store[userId] else Conversation(userId, [], None)
  }

  /** Pushing a message: everything already there stays, in order, and the
      new message is last. */
  function Append(c: Conversation, m: Message): (c': Conversation)
    ensures c'.userId == c.userId
    ensures |c'.messages| == |c.messages| + 1
    ensures c'.messages[..|c.messages|] == c.messages
    ensures c'.messages[|c.messages|] == m
  {
    c.(messages := c.messages + [m])
  }

  /** `save`: the stored copy for the user becomes `c`, stamped `now`;
      nobody else's conversation changes. */
  function Persist(store: Store, c: Conversation, now: nat): (store': Store)
    ensures c.userId in store'
    ensures store'[c.userId].messages == c.messages
    ensures store'[c.userId].updatedAt == Some(now)
    ensures SameExcept(store, store', c.userId)
    ensures WellKeyed(store) ==> WellKeyed(store')
  {
    store[c.userId := c.(updatedAt := Some(now))]
  }

  /** Read-only lookup of a user's conversation. */
  function FetchLatest(store: Store, userId: UserId): (r: Option<Conversation>)
    ensures r.Some? <==> userId in store
    ensures r.Some? ==> r.value == store[userId]
  {
    if userId in store then Some(store[userId]) else None
  }

  /** Append, save, read back: the message read back last is the one
      appended, after everything that was there before. */
  lemma AppendPersistFetch(store: Store, c: Conversation, m: Message, now: nat)
    ensures var fetched := FetchLatest(Persist(store, Append(c, m), now), c.userId);
      && fetched.Some?
      && fetched.value.messages == c.messages + [m]
      && fetched.value.messages[|fetched.value.messages| - 1] == m
  {
  }
}

=== FILE: gemini.dfy ===
/**
 * The AI adapter: one call to the generative-language provider per attempt,
 * each raced against a 30 s timer, at most three attempts with exponential
 * backoff between them, and a canned reply from a fixed pool once all three
 * have failed. It never fails itself.
 *
 * The provider, the timer race and `Math.random` are not modelled as code:
 * how attempt `n` settles is an oracle `outcome(n)`, and the random number
 * is a parameter in [0, 1).
 */
module Gemini {
  import opened Common
  import Strings

  /** Total number of provider calls before falling back. */
  const MaxRetries: nat := 3
  /** How long one provider call may take before it counts as failed. */
  const TimeoutMs: nat := 30000
  /** Base of the exponential backoff. */
  const BackoffBaseMs: nat := 1000

  /** The fixed instruction put in front of every question. */
  const SystemPrompt: string :=
    "\n    You are FarmAI, an agricultural assistant specialized in maize farming. "
    + "\n    Provide concise, practical advice to farmers with these guidelines:"
    + "\n    "
    + "\n    1. Focus specifically on maize/corn cultivation"
    + "\n    2. Use simple language (primary school level)"
    + "\n    3. Prioritize cost-effective methods"
    + "\n    4. Recommend sustainable practices"
    + "\n    5. Assume tropical climate if not specified"
    + "\n    6. Provide actionable steps"
    + "\n    7. Keep responses under 300 words"
    + "\n  "

  /** Separates the instruction from the user's question. */
  const QuestionTag: string := "\n\nQuestion: "

  /** The canned replies used once every attempt has failed. */
  const Fallbacks: seq<string> := [
    "I'm currently unable to access farming advice. Please try again later.",
    "Our maize farming experts are busy. For immediate help, contact your local agricultural extension officer.",
    "Network issues prevent me from responding. Here's a general tip: Ensure proper soil preparation before planting maize.",
    "I can't respond right now. Remember to test your soil pH before applying fertilizers."
  ]

  /** How one provider call settles in its race against the timer. A timer
      win and a provider error are both rejections of the race. */
  datatype Attempt = Reply(text: string) | ProviderError(message: string) | TimedOut

  /** What one call of the adapter did: the text it returned, the request
      texts it sent (one per attempt), the backoff waits it made, and whether
      the text came from the fallback pool. */
  datatype Run = Run(text: string, requests: seq<string>, delays: seq<nat>, fellBack: bool)

  /** The request text sent to the provider for a question. */
  function RequestText(prompt: string): string
  {
    SystemPrompt + QuestionTag + prompt
  }

  /** Recovers the question from a request text. */
  function QuestionOf(request: string): string
  {
    var n := |SystemPrompt| + |QuestionTag|;
    if |request| < n then "" else request[n..]
  }

  /** The question can always be read back out of the request text, so no
      two questions produce the same request. */
  lemma QuestionRoundTrip(prompt: string)
    ensures QuestionOf(RequestText(prompt)) == prompt
    ensures RequestText(prompt)[..|SystemPrompt|] == SystemPrompt
  {
    var n := |SystemPrompt| + |QuestionTag|;
    assert RequestText(prompt)[n..] == prompt;
  }

  /** `Math.floor(Math.random() * fallbacks.length)`. Multiplying by 4 is
      exact in binary floating point, so the real-number reading is faithful. */
  function FallbackIndex(random: real): (k: nat)
    requires 0.0 <= random < 1.0
    ensures k < |Fallbacks|
  {
    (random * (|Fallbacks| as real)).Floor as nat
  }

  /** A reply drawn from the fallback pool. The question is not consulted. */
  function FallbackResponse(prompt: string, random: real): (r: string)
    requires 0.0 <= random < 1.0
    ensures r in Fallbacks
    ensures r != ""
  {
    Fallbacks[FallbackIndex(random)]
  }

  /** Which canned reply comes back depends on the random draw alone. */
  lemma FallbackIgnoresPrompt(p1: string, p2: string, random: real)
    requires 0.0 <= random < 1.0
    ensures FallbackResponse(p1, random) == FallbackResponse(p2, random)
  {
  }

  /** The wait after a failure of attempt `attempt` (counted from 1):
      `1000 * Math.pow(2, attempt)` ms, computed by doubling. */
  function Backoff(attempt: nat): nat
  {
    if attempt == 0 then BackoffBaseMs else 2 * Backoff(attempt - 1)
  }

  /** The waits after failures of attempts `attempt`, `attempt + 1`, ... (`count` of them). */
  function BackoffsFrom(attempt: nat, count: nat): seq<nat>
    decreases count
  {
    if count == 0 then [] else [Backoff(attempt)] + BackoffsFrom(attempt + 1, count - 1)
  }

  /** The retry loop from attempt `attempt` (1-based) onwards, sending
      `request` each time and answering `fallback` once the last attempt has
      failed. The text of a successful run is the provider's reply as
      received; `Generate` trims it, which is what returning
      `response.text().trim()` from inside the loop amounts to. */
  function GenerateFrom(request: string, fallback: string, outcome: nat -> Attempt, attempt: nat): (r: Run)
    requires 1 <= attempt <= MaxRetries
    ensures 1 <= |r.requests| <= MaxRetries - attempt + 1
    ensures r.requests == Repeat(request, |r.requests|)
    ensures r.delays == BackoffsFrom(attempt, |r.requests| - 1)
    ensures forall n :: attempt <= n < attempt + |r.requests| - 1 ==> !outcome(n).Reply?
    ensures r.fellBack <==> forall n :: attempt <= n <= MaxRetries ==> !outcome(n).Reply?
    ensures r.fellBack ==> attempt + |r.requests| - 1 == MaxRetries && r.text == fallback
    ensures !r.fellBack ==>
      && outcome(attempt + |r.requests| - 1).Reply?
      && r.text == outcome(attempt + |r.requests| - 1).text
    decreases MaxRetries - attempt
  {
    match outcome(attempt)
    case Reply(t) => Run(t, [request], [], false)
    case _ =>
      if attempt == MaxRetries then
        Run(fallback, [request], [], true)
      else
        var rest := GenerateFrom(request, fallback, outcome, attempt + 1);
        Run(rest.text, [request] + rest.requests, [Backoff(attempt)] + rest.delays, rest.fellBack)
  }

  /** `generateResponse(prompt)`: the whole adapter call. It always returns
      a text: the trimmed reply of the first attempt that succeeded, or a
      fallback reply after three failures. Every attempt sends the same
      request, and the waits between attempts are 2000 ms and then 4000 ms. */
  function Generate(prompt: string, outcome: nat -> Attempt, random: real): (r: Run)
    requires 0.0 <= random < 1.0
    ensures 1 <= |r.requests| <= MaxRetries
    ensures r.requests == Repeat(RequestText(prompt), |r.requests|)
    ensures r.delays == [2000, 4000][..|r.requests| - 1]
    ensures forall n :: 1 <= n < |r.requests| ==> !outcome(n).Reply?
    ensures r.fellBack <==> forall n :: 1 <= n <= MaxRetries ==> !outcome(n).Reply?
    ensures r.fellBack ==> |r.requests| == MaxRetries && r.text in Fallbacks
    ensures !r.fellBack ==>
      outcome(|r.requests|).Reply? && r.text == Strings.Trim(outcome(|r.requests|).text)
  {
    var r := GenerateFrom(RequestText(prompt), FallbackResponse(prompt, random), outcome, 1);
    FirstBackoffs(|r.requests| - 1);
    if r.fellBack then r else r.(text := Strings.Trim(r.text))
  }

  /** The first waits of the adapter's schedule. */
  lemma FirstBackoffs(count: nat)
    requires count <= MaxRetries - 1
    ensures BackoffsFrom(1, count) == [2000, 4000][..count]
  {
    assert BackoffsFrom(3, 0) == [];
    assert BackoffsFrom(2, 1) == [4000];
    assert [2000, 4000][..1] == [2000];
  }

  /** A timer win and a provider error are handled identically: two runs
      whose attempts agree on which ones replied, and with what, are the
      same run. */
  lemma {:induction false} FailureKindIrrelevantFrom(request: string, fallback: string, o1: nat -> Attempt, o2: nat -> Attempt, attempt: nat)
    requires 1 <= attempt <= MaxRetries
    requires forall n :: attempt <= n <= MaxRetries ==> (o1(n).Reply? <==> o2(n).Reply?)
    requires forall n :: attempt <= n <= MaxRetries && o1(n).Reply? ==> o1(n) == o2(n)
    ensures GenerateFrom(request, fallback, o1, attempt) == GenerateFrom(request, fallback, o2, attempt)
    decreases MaxRetries - attempt
  {
    if !o1(attempt).Reply? && attempt < MaxRetries {
      FailureKindIrrelevantFrom(request, fallback, o1, o2, attempt + 1);
    }
  }

  lemma FailureKindIrrelevant(prompt: string, o1: nat -> Attempt, o2: nat -> Attempt, random: real)
    requires 0.0 <= random < 1.0
    requires forall n :: 1 <= n <= MaxRetries ==> (o1(n).Reply? <==> o2(n).Reply?)
    requires forall n :: 1 <= n <= MaxRetries && o1(n).Reply? ==> o1(n) == o2(n)
    ensures Generate(prompt, o1, random) == Generate(prompt, o2, random)
  {
    FailureKindIrrelevantFrom(RequestText(prompt), FallbackResponse(prompt, random), o1, o2, 1);
  }

  /** A provider that answers at once is called once, and its trimmed answer
      is returned with no wait. */
  lemma FirstReplyWins(prompt: string, outcome: nat -> Attempt, random: real)
    requires 0.0 <= random < 1.0
    requires outcome(1).Reply?
    ensures Generate(prompt, outcome, random)
      == Run(Strings.Trim(outcome(1).text), [RequestText(prompt)], [], false)
  {
  }

  /** A provider that always times out is called three times, with waits of
      2000 and 4000 ms between the calls, and a fallback reply comes back. */
  lemma AlwaysTimingOut(prompt: string, outcome: nat -> Attempt, random: real)
    requires 0.0 <= random < 1.0
    requires forall n :: outcome(n) == TimedOut
    ensures var r := Generate(prompt, outcome, random);
      && |r.requests| == 3
      && r.delays == [2000, 4000]
      && r.fellBack
      && r.text in Fallbacks
  {
  }

  /** Waiting is bounded: at most 6 s of backoff, and with every attempt
      capped at the 30 s timer, the adapter settles within 96 s. */
  lemma GenerateTimeBound(prompt: string, outcome: nat -> Attempt, random: real)
    requires 0.0 <= random < 1.0
    ensures var r := Generate(prompt, outcome, random);
      && Sum(r.delays) <= 6000
      && |r.requests| * TimeoutMs + Sum(r.delays) <= 96000
  {
    var r := Generate(prompt, outcome, random);
    assert [2000, 4000][..0] == [];
    assert [2000, 4000][..1] == [2000];
    assert [2000, 4000][..2] == [2000, 4000];
    assert Sum([4000]) == 4000;
  }
}

=== FILE: strings.dfy ===
/**
 * The JavaScript string operations the backend relies on: `trim`, `includes`,
 * `toLowerCase` and the whitespace class shared by `trim` and the regular
 * expression escapes `\s` / `\S`.
 */
module Strings {

  /** ECMAScript WhiteSpace and LineTerminator code points: exactly what `trim`
      strips and what `\s` matches. */
  predicate IsSpace(c: char)
  {
    c in Whitespace
  }

  const Whitespace: set<char> := {
    ' ', '\t', '\n', '\r', '\U{000B}', '\U{000C}', '\U{00A0}', '\U{1680}',
    '\U{2000}', '\U{2001}', '\U{2002}', '\U{2003}', '\U{2004}', '\U{2005}',
    '\U{2006}', '\U{2007}', '\U{2008}', '\U{2009}', '\U{200A}',
    '\U{2028}', '\U{2029}', '\U{202F}', '\U{205F}', '\U{3000}', '\U{FEFF}'
  }

  /** Every character of `s` in [lo, hi) is whitespace. */
  predicate SpacesIn(s: string, lo: nat, hi: nat)
    requires lo <= hi <= |s|
  {
    forall k :: lo <= k < hi ==> IsSpace(s[k])
  }

  predicate AllSpace(s: string)
  {
    SpacesIn(s, 0, |s|)
  }

  /** Every character is matched by `\S`. */
  predicate NoSpace(s: string)
  {
    forall i :: 0 <= i < |s| ==> !IsSpace(s[i])
  }

  /** Neither end of `s` is whitespace (vacuously true of the empty string). */
  predicate Tight(s: string)
  {
    s != [] ==> !IsSpace(s[0]) && !IsSpace(s[|s| - 1])
  }

  /** `s[i..j]` has only whitespace before and after it, and does not itself
      start or end with whitespace: the shape of a trimmed piece. */
  predicate TrimmedPiece(s: string, i: nat, j: nat)
  {
    && i <= j <= |s|
    && SpacesIn(s, 0, i)
    && SpacesIn(s, j, |s|)
    && (i < j ==> !IsSpace(s[i]) && !IsSpace(s[j - 1]))
  }

  /** The first index at or after `i` that is not whitespace, or `|s|`. */
  function SkipSpace(s: string, i: nat): (a: nat)
    requires i <= |s|
    ensures i <= a <= |s|
    ensures SpacesIn(s, i, a)
    ensures a < |s| ==> !IsSpace(s[a])
    decreases |s| - i
  {
    if i < |s| && IsSpace(s[i]) then SkipSpace(s, i + 1) else i
  }

  /** The end of the last non-whitespace character in [lo, j), or `lo`. */
  function SkipSpaceBack(s: string, lo: nat, j: nat): (b: nat)
    requires lo <= j <= |s|
    ensures lo <= b <= j
    ensures SpacesIn(s, b, j)
    ensures b > lo ==> !IsSpace(s[b - 1])
    decreases j
  {
    if j > lo && IsSpace(s[j - 1]) then SkipSpaceBack(s, lo, j - 1) else j
  }

  function TrimStartIndex(s: string): nat
  {
    SkipSpace(s, 0)
  }

  function TrimEndIndex(s: string): nat
  {
    SkipSpaceBack(s, SkipSpace(s, 0), |s|)
  }

  /** `String.prototype.trim`: drop leading and trailing whitespace. What is
      left is a piece of `s` with only whitespace around it and none at its
      ends. */
  function Trim(s: string): (r: string)
    ensures TrimmedPiece(s, TrimStartIndex(s), TrimEndIndex(s))
    ensures r == s[TrimStartIndex(s)..TrimEndIndex(s)]
    ensures exists i: nat, j: nat :: TrimmedPiece(s, i, j) && r == s[i..j]
  {
    s[SkipSpace(s, 0)..SkipSpaceBack(s, SkipSpace(s, 0), |s|)]
  }

  /** Trimming leaves nothing exactly when the text is all whitespace. */
  lemma TrimEmpty(s: string)
    ensures Trim(s) == [] <==> AllSpace(s)
  {
    var a := TrimStartIndex(s);
    var b := TrimEndIndex(s);
    if Trim(s) == [] {
      assert a == b;
      forall k | 0 <= k < |s| ensures IsSpace(s[k]) {
        if k >= a { assert b <= k; }
      }
    }
  }

  /** Trim is the ONLY piece of `s` of that shape: any whitespace-framed
      piece without whitespace at its ends is what `trim` returns. */
  lemma TrimUnique(s: string, i: nat, j: nat)
    requires TrimmedPiece(s, i, j)
    ensures Trim(s) == s[i..j]
  {
    var a := TrimStartIndex(s);
    var b := TrimEndIndex(s);
    if i == j {
      assert AllSpace(s) by {
        forall k | 0 <= k < |s| ensures IsSpace(s[k]) {
          if k >= i { assert j <= k; }
        }
      }
      TrimEmpty(s);
    } else {
      assert a == i;
      assert b == j;
    }
  }

  /** Both ends of a trimmed text are non-whitespace. */
  lemma TrimTight(s: string)
    ensures Tight(Trim(s))
  {
    var a := TrimStartIndex(s);
    var b := TrimEndIndex(s);
    var r := Trim(s);
    if r != [] {
      assert r[0] == s[a] && r[|r| - 1] == s[b - 1];
    }
  }

  lemma TrimIdempotent(s: string)
    ensures Trim(Trim(s)) == Trim(s)
  {
    var r := Trim(s);
    TrimTight(s);
    assert TrimmedPiece(r, 0, |r|);
    TrimUnique(r, 0, |r|);
    assert r[0..|r|] == r;
  }

  /** `sub` occurs in `s` starting at index `i`. */
  predicate OccursAt(s: string, sub: string, i: nat)
  {
    i + |sub| <= |s| && s[i..i + |sub|] == sub
  }

  /** `String.prototype.includes`, computed by scanning. */
  function Includes(s: string, sub: string): bool
  {
    IncludesFrom(s, sub, 0)
  }

  /** Scans the start positions `i`, `i + 1`, ... of `s` for `sub`. */
  function IncludesFrom(s: string, sub: string, i: nat): bool
    decreases |s| - i
  {
    if i + |sub| > |s| then false
    else if s[i..i + |sub|] == sub then true
    else IncludesFrom(s, sub, i + 1)
  }

  lemma {:induction false} IncludesFromCorrect(s: string, sub: string, i: nat)
    ensures IncludesFrom(s, sub, i) <==> exists k: nat :: i <= k && OccursAt(s, sub, k)
    decreases |s| - i
  {
    if i + |sub| > |s| {
    } else if s[i..i + |sub|] == sub {
      assert OccursAt(s, sub, i);
    } else {
      IncludesFromCorrect(s, sub, i + 1);
      if exists k: nat :: i <= k && OccursAt(s, sub, k) {
        var k: nat :| i <= k && OccursAt(s, sub, k);
        assert k != i;
      }
    }
  }

  /** The scan finds `sub` exactly when it occurs somewhere in `s`. */
  lemma IncludesCorrect(s: string, sub: string)
    ensures Includes(s, sub) <==> exists i: nat :: OccursAt(s, sub, i)
  {
    IncludesFromCorrect(s, sub, 0);
  }

  /** If `sub` occurs in `s` at all, the scan reports it. */
  lemma IncludesAt(s: string, sub: string, i: nat)
    requires OccursAt(s, sub, i)
    ensures Includes(s, sub)
  {
    IncludesCorrect(s, sub);
  }

  /** ASCII case folding of one character. */
  function LowerChar(c: char): char
  {
    if IsUpper(c) then (c as int + 32) as char else c
  }

  /** An upper-case ASCII letter. */
  predicate IsUpper(c: char)
  {
    'A' <= c <= 'Z'
  }

  /** `String.prototype.toLowerCase`, for the ASCII letters: no upper-case
      letter is left, each upper-case letter becomes its lower-case partner
      and every other character stays as it was. */
  function ToLower(s: string): (r: string)
    ensures |r| == |s|
    ensures forall i :: 0 <= i < |r| ==> !IsUpper(r[i])
    ensures forall i :: 0 <= i < |s| ==> (IsUpper(s[i]) ==> r[i] as int == s[i] as int + 32)
    ensures forall i :: 0 <= i < |s| ==> (!IsUpper(s[i]) ==> r[i] == s[i])
    ensures forall i :: 0 <= i < |s| ==> (IsSpace(r[i]) <==> IsSpace(s[i]))
    ensures forall i :: 0 <= i < |s| ==> (r[i] == '@' <==> s[i] == '@')
    ensures forall i :: 0 <= i < |s| ==> (r[i] == '.' <==> s[i] == '.')
  {
    seq(|s|, i requires 0 <= i < |s| => LowerChar(s[i]))
  }

  lemma ToLowerSlice(s: string, a: nat, b: nat)
    requires a <= b <= |s|
    ensures ToLower(s)[a..b] == ToLower(s[a..b])
  {
  }

  /** Lower-casing moves no whitespace, so a trimmed piece stays one. */
  lemma ToLowerTrimmedPiece(s: string, i: nat, j: nat)
    requires TrimmedPiece(s, i, j)
    ensures TrimmedPiece(ToLower(s), i, j)
  {
  }

  /** Lower-casing then trimming equals trimming then lower-casing, so the
      order of the two schema setters on an e-mail does not matter. */
  lemma TrimLowerCommute(s: string)
    ensures Trim(ToLower(s)) == ToLower(Trim(s))
  {
    var a := TrimStartIndex(s);
    var b := TrimEndIndex(s);
    ToLowerTrimmedPiece(s, a, b);
    TrimUnique(ToLower(s), a, b);
    ToLowerSlice(s, a, b);
  }
}

=== FILE: task_model.dfy ===
/**
 * The task schema: `name` (required, trimmed), `dueDate` (required, a plain
 * string with no date parsing), `description` (default empty),
 * `resources` (default no resources), `isCompleted` (default false), and
 * the `createdAt` / `updatedAt` timestamps.
 *
 * A required string field is unsatisfied by a missing value and by the
 * empty string; `name` is trimmed before that check.
 */
module TaskModel {
  import opened Common
  import Strings

  type TaskId = string

  datatype Task = Task(
    id: TaskId,
    name: string,
    dueDate: string,
    description: string,
    resources: seq<string>,
    isCompleted: bool,
    createdAt: nat,
    updatedAt: nat)

  /** A create request body; `None` is a field that was not sent. */
  datatype TaskInput = TaskInput(
    id: Option<TaskId>,
    name: Option<string>,
    dueDate: Option<string>,
    description: Option<string>,
    resources: Option<seq<string>>,
    isCompleted: Option<bool>)

  /** An update request body: only the fields sent are set. */
  datatype TaskPatch = TaskPatch(
    name: Option<string>,
    dueDate: Option<string>,
    description: Option<string>,
    resources: Option<seq<string>>,
    isCompleted: Option<bool>)

  /** The `required` check on a string after its setters have run. */
  predicate Present(v: Option<string>)
  {
    v.Some? && v.value != ""
  }

  /** The value a field takes: the one sent, or the schema default. */
  function OrDefault<T>(v: Option<T>, default: T): (r: T)
    ensures v.Some? ==> r == v.value
    ensures v.None? ==> r == default
  {
    if v.Some? then v.value else default
  }

  /** The `trim` setter, applied to a value if there is one. */
  function TrimName(name: Option<string>): (r: Option<string>)
    ensures r.Some? <==> name.Some?
    ensures r.Some? ==> exists i: nat, j: nat :: Strings.TrimmedPiece(name.value, i, j) && r.value == name.value[i..j]
    ensures r.Some? ==> Strings.Tight(r.value)
    ensures r.Some? ==> (r.value == "" <==> Strings.AllSpace(name.value))
  {
    if name.Some? then
      Strings.TrimTight(name.value);
      Strings.TrimEmpty(name.value);
      Some(Strings.Trim(name.value))
    else None
  }

  /** The paths a new document fails validation on, as `err.errors` keys:
      an `_id` that does not cast to an object id, a `name` that is missing
      or all whitespace, a `dueDate` that is missing or empty. */
  function CreateErrors(input: TaskInput, id: TaskId, isValidId: TaskId -> bool): (paths: set<string>)
    ensures "_id" in paths <==> !isValidId(id)
    ensures "name" in paths <==> input.name.None? || Strings.AllSpace(input.name.value)
    ensures "dueDate" in paths <==> !Present(input.dueDate)
    ensures paths <= {"_id", "name", "dueDate"}
  {
    (if isValidId(id) then {} else {"_id"})
    + (if Present(TrimName(input.name)) then {} else {"name"})
    + (if Present(input.dueDate) then {} else {"dueDate"})
  }

  /** The document `new Task(body)` builds, defaults filled in. */
  function NewTask(input: TaskInput, id: TaskId, now: nat): (t: Task)
    requires input.name.Some? && input.dueDate.Some?
    ensures t.id == id && t.createdAt == now && t.updatedAt == now
    ensures t.name == Strings.Trim(input.name.value) && t.dueDate == input.dueDate.value
    ensures input.description.None? ==> t.description == ""
    ensures input.description.Some? ==> t.description == input.description.value
    ensures input.resources.None? ==> t.resources == []
    ensures input.resources.Some? ==> t.resources == input.resources.value
    ensures input.isCompleted.None? ==> !t.isCompleted
    ensures input.isCompleted.Some? ==> t.isCompleted == input.isCompleted.value
  {
    Task(id, Strings.Trim(input.name.value), input.dueDate.value,
         OrDefault(input.description, ""), OrDefault(input.resources, []),
         OrDefault(input.isCompleted, false), now, now)
  }

  /** The paths an update fails its validators on. Only fields that are sent
      are validated: leaving a field out never fails. */
  function PatchErrors(patch: TaskPatch): (paths: set<string>)
    ensures "name" in paths <==> patch.name.Some? && Strings.AllSpace(patch.name.value)
    ensures "dueDate" in paths <==> patch.dueDate == Some("")
    ensures paths <= {"name", "dueDate"}
  {
    (if patch.name.Some? && !Present(TrimName(patch.name)) then {"name"} else {})
    + (if patch.dueDate == Some("") then {"dueDate"} else {})
  }

  /** `findByIdAndUpdate` with `new: true`. The update keeps the identity
      and creation time, takes every field it sends (the name trimmed),
      leaves every field it does not send as it was, and moves `updatedAt`. */
  function ApplyPatch(t: Task, patch: TaskPatch, now: nat): (u: Task)
    ensures u.id == t.id && u.createdAt == t.createdAt && u.updatedAt == now
    ensures patch.name.None? ==> u.name == t.name
    ensures patch.name.Some? ==> u.name == Strings.Trim(patch.name.value)
    ensures patch.dueDate.None? ==> u.dueDate == t.dueDate
    ensures patch.dueDate.Some? ==> u.dueDate == patch.dueDate.value
    ensures patch.description.None? ==> u.description == t.description
    ensures patch.description.Some? ==> u.description == patch.description.value
    ensures patch.resources.None? ==> u.resources == t.resources
    ensures patch.resources.Some? ==> u.resources == patch.resources.value
    ensures patch.isCompleted.None? ==> u.isCompleted == t.isCompleted
    ensures patch.isCompleted.Some? ==> u.isCompleted == patch.isCompleted.value
  {
    Task(t.id,
         OrDefault(TrimName(patch.name), t.name),
         OrDefault(patch.dueDate, t.dueDate),
         OrDefault(patch.description, t.description),
         OrDefault(patch.resources, t.resources),
         OrDefault(patch.isCompleted, t.isCompleted),
         t.createdAt, now)
  }

  /** Sending the same update twice has the effect of sending it once. */
  lemma PatchIdempotent(t: Task, patch: TaskPatch, now: nat)
    ensures ApplyPatch(ApplyPatch(t, patch, now), patch, now) == ApplyPatch(t, patch, now)
  {
    if patch.name.Some? {
      Strings.TrimIdempotent(patch.name.value);
    }
  }

  /** A stored task satisfies the schema: its name and due date are
      non-empty and its name has no surrounding whitespace. */
  predicate Conforms(t: Task)
  {
    t.name != "" && Strings.Tight(t.name) && t.dueDate != ""
  }

  /** A new document that passes validation conforms to the schema. */
  lemma NewTaskConforms(input: TaskInput, id: TaskId, now: nat, isValidId: TaskId -> bool)
    requires CreateErrors(input, id, isValidId) == {}
    ensures input.name.Some? && input.dueDate.Some?
    ensures Conforms(NewTask(input, id, now))
  {
    assert "name" !in CreateErrors(input, id, isValidId);
    assert "dueDate" !in CreateErrors(input, id, isValidId);
    Strings.TrimEmpty(input.name.value);
    Strings.TrimTight(input.name.value);
  }

  /** An update that passes validation keeps a conforming task conforming. */
  lemma PatchConforms(t: Task, patch: TaskPatch, now: nat)
    requires Conforms(t)
    requires PatchErrors(patch) == {}
    ensures Conforms(ApplyPatch(t, patch, now))
  {
    assert "name" !in PatchErrors(patch);
    if patch.name.Some? {
      Strings.TrimEmpty(patch.name.value);
      Strings.TrimTight(patch.name.value);
    }
  }
}

=== FILE: task_routes.dfy ===
/**
 * The task routes over a store of tasks keyed by id: list (newest first),
 * create (an id is generated when none is sent), update and delete (both
 * behind the object-id format check), and the error-to-status mapping.
 *
 * `ObjectId.isValid` is a parameter; database faults are flags that route
 * to the 500 handler.
 */
module TaskRoutes {
  import opened Common
  import Strings
  import opened TaskModel

  const InvalidIdFormat: string := "Invalid task ID format"
  const InvalidId: string := "Invalid task ID"
  const NotFound: string := "Task not found"
  const ValidationError: string := "Validation Error"
  const ServerError: string := "Something went wrong!"

  type TaskStore = map<TaskId, Task>

  /** Every task is filed under its own id. */
  predicate WellKeyed(store: TaskStore)
  {
    forall id :: id in store ==> store[id].id == id
  }

  datatype TaskBody =
    | One(task: Task)
    | Many(tasks: seq<Task>)
    | NoContent
    | Message(message: string)
    | Invalid(message: string, paths: set<string>)

  datatype TaskReply = TaskReply(status: nat, body: TaskBody)

  datatype TaskResult = TaskResult(reply: TaskReply, store: TaskStore)

  /** The 500 handler every uncaught error reaches. */
  const Failure: TaskReply := TaskReply(500, Message(ServerError))

  /** What creating depends on: the id check, a freshly generated id, the
      clock, and a fault of the save. */
  datatype CreateEnv = CreateEnv(isValidId: TaskId -> bool, freshId: TaskId, now: nat, saveFault: bool)

  /** The id a create uses: the one sent, unless it is missing or empty. */
  function CreateId(input: TaskInput, freshId: TaskId): (id: TaskId)
    ensures input.id.Some? && input.id.value != "" ==> id == input.id.value
    ensures input.id.None? || input.id.value == "" ==> id == freshId
  {
    if input.id.Some? && input.id.value != "" then input.id.value else freshId
  }

  /** `POST /`: validation failures are a 400 listing the failing paths; an
      id already in use (a duplicate key) and a failed save are 500s;
      otherwise the new task is stored under its id and returned with 201. */
  function Create(store: TaskStore, input: TaskInput, env: CreateEnv): (r: TaskResult)
    ensures r.reply.status in {201, 400, 500}
    ensures r.reply.status != 201 ==> r.store == store
    ensures var id := CreateId(input, env.freshId);
      && (r.reply.status == 400 <==> CreateErrors(input, id, env.isValidId) != {})
      && (r.reply.status == 400 ==> r.reply.body == Invalid(ValidationError, CreateErrors(input, id, env.isValidId)))
      && (r.reply.status == 500 ==> r.reply.body == Message(ServerError))
      && (r.reply.status == 201 <==>
           CreateErrors(input, id, env.isValidId) == {} && id !in store && !env.saveFault)
      && (r.reply.status == 201 ==>
           && input.name.Some? && input.dueDate.Some?
           && r.reply.body == One(NewTask(input, id, env.now))
           && r.store == store[id := NewTask(input, id, env.now)])
  {
    var id := CreateId(input, env.freshId);
    var errors := CreateErrors(input, id, env.isValidId);
    if errors != {} then
      TaskResult(TaskReply(400, Invalid(ValidationError, errors)), store)
    else if id in store || env.saveFault then
      TaskResult(Failure, store)
    else
      var task := NewTask(input, id, env.now);
      TaskResult(TaskReply(201, One(task)), store[id := task])
  }

  /** What updating depends on: the id check, the clock, a body value that
      cannot be cast to its field's type, and a fault of the database. */
  datatype UpdateEnv = UpdateEnv(isValidId: TaskId -> bool, now: nat, castFault: bool, fault: bool)

  /** `PUT /:id`: a malformed id is a 400 before anything else; a body
      value that does not cast is a 400 "Invalid task ID"; validation
      failures on the fields sent are a 400; an absent task is a 404;
      otherwise exactly that task changes and is returned. */
  function Update(store: TaskStore, id: TaskId, patch: TaskPatch, env: UpdateEnv): (r: TaskResult)
    ensures r.reply.status in {200, 400, 404, 500}
    ensures r.reply.status != 200 ==> r.store == store
    ensures !env.isValidId(id) ==> r.reply == TaskReply(400, Message(InvalidIdFormat))
    ensures env.isValidId(id) && env.castFault ==> r.reply == TaskReply(400, Message(InvalidId))
    ensures env.isValidId(id) && !env.castFault && PatchErrors(patch) != {} ==>
      r.reply == TaskReply(400, Invalid(ValidationError, PatchErrors(patch)))
    ensures env.isValidId(id) && !env.castFault && PatchErrors(patch) == {} && env.fault ==>
      r.reply == Failure
    ensures r.reply.status == 404 <==>
      env.isValidId(id) && !env.castFault && PatchErrors(patch) == {} && !env.fault && id !in store
    ensures r.reply.status == 404 ==> r.reply.body == Message(NotFound)
    ensures r.reply.status == 200 <==>
      env.isValidId(id) && !env.castFault && PatchErrors(patch) == {} && !env.fault && id in store
    ensures r.reply.status == 200 ==>
      && r.reply.body == One(ApplyPatch(store[id], patch, env.now))
      && r.store == store[id := ApplyPatch(store[id], patch, env.now)]
  {
    if !env.isValidId(id) then TaskResult(TaskReply(400, Message(InvalidIdFormat)), store)
    else if env.castFault then TaskResult(TaskReply(400, Message(InvalidId)), store)
    else if PatchErrors(patch) != {} then
      TaskResult(TaskReply(400, Invalid(ValidationError, PatchErrors(patch))), store)
    else if env.fault then TaskResult(Failure, store)
    else if id !in store then TaskResult(TaskReply(404, Message(NotFound)), store)
    else
      var task := ApplyPatch(store[id], patch, env.now);
      TaskResult(TaskReply(200, One(task)), store[id := task])
  }

  /** `DELETE /:id`: a malformed id is a 400; an absent task is a 404;
      otherwise exactly that task is removed and the reply is an empty 204.
      The only value cast here is the id, which `ObjectId.isValid` already
      accepted, so the route's `CastError` branch has no counterpart. */
  function Delete(store: TaskStore, id: TaskId, isValidId: TaskId -> bool, fault: bool): (r: TaskResult)
    ensures r.reply.status in {204, 400, 404, 500}
    ensures r.reply.status != 204 ==> r.store == store
    ensures !isValidId(id) ==> r.reply == TaskReply(400, Message(InvalidIdFormat))
    ensures isValidId(id) && fault ==> r.reply == Failure
    ensures r.reply.status == 404 <==> isValidId(id) && !fault && id !in store
    ensures r.reply.status == 404 ==> r.reply.body == Message(NotFound)
    ensures r.reply.status == 204 <==> isValidId(id) && !fault && id in store
    ensures r.reply.status == 204 ==>
      r.reply.body == NoContent && id !in r.store && r.store.Keys == store.Keys - {id}
      && forall other :: other in r.store ==> r.store[other] == store[other]
  {
    if !isValidId(id) then TaskResult(TaskReply(400, Message(InvalidIdFormat)), store)
    else if fault then TaskResult(Failure, store)
    else if id !in store then TaskResult(TaskReply(404, Message(NotFound)), store)
    else TaskResult(TaskReply(204, NoContent), store - {id})
  }

  /** Every operation keeps each task filed under its own id. */
  lemma OperationsKeepWellKeyed(store: TaskStore, input: TaskInput, cenv: CreateEnv, id: TaskId, patch: TaskPatch, uenv: UpdateEnv, isValidId: TaskId -> bool, fault: bool)
    requires WellKeyed(store)
    ensures WellKeyed(Create(store, input, cenv).store)
    ensures WellKeyed(Update(store, id, patch, uenv).store)
    ensures WellKeyed(Delete(store, id, isValidId, fault).store)
  {
  }

  /** Deleting a task just created restores the store, and deleting it
      again finds nothing. */
  lemma CreateThenDelete(store: TaskStore, input: TaskInput, env: CreateEnv)
    requires Create(store, input, env).reply.status == 201
    ensures var id := CreateId(input, env.freshId);
      var created := Create(store, input, env).store;
      && Delete(created, id, env.isValidId, false).reply.status == 204
      && Delete(created, id, env.isValidId, false).store == store
      && Delete(store, id, env.isValidId, false).reply.status == 404
  {
    var id := CreateId(input, env.freshId);
    assert "_id" !in CreateErrors(input, id, env.isValidId);
    var created := Create(store, input, env).store;
    assert created - {id} == store;
  }

  /** With no id sent, a generated id not yet in use and a valid body,
      creating succeeds and fills in the defaults. */
  lemma CreateDefaults(store: TaskStore, name: string, dueDate: string, env: CreateEnv)
    requires env.isValidId(env.freshId) && env.freshId !in store && !env.saveFault
    requires !Strings.AllSpace(name) && dueDate != ""
    ensures var r := Create(store, TaskInput(None, Some(name), Some(dueDate), None, None, None), env);
      && r.reply.status == 201
      && r.reply.body.task.id == env.freshId
      && r.reply.body.task.name == Strings.Trim(name)
      && r.reply.body.task.description == ""
      && r.reply.body.task.resources == []
      && !r.reply.body.task.isCompleted
  {
  }

  /** Newest first: `createdAt` never increases along the list. */
  predicate NewestFirst(tasks: seq<Task>)
  {
    forall i, j :: 0 <= i < j < |tasks| ==> tasks[i].createdAt >= tasks[j].createdAt
  }

  /** No two listed tasks share an id. */
  predicate DistinctIds(tasks: seq<Task>)
  {
    forall i, j :: 0 <= i < j < |tasks| ==> tasks[i].id != tasks[j].id
  }

  /** Puts `t` into a list before the first task not newer than it.
      Nothing is lost or duplicated. */
  function Insert(tasks: seq<Task>, t: Task): (r: seq<Task>)
    ensures multiset(r) == multiset(tasks) + multiset{t}
    ensures |r| == |tasks| + 1
    ensures forall x :: x in r <==> x in tasks || x == t
  {
    if tasks == [] || t.createdAt >= tasks[0].createdAt then [t] + tasks
    else
      assert tasks == [tasks[0]] + tasks[1..];
      [tasks[0]] + Insert(tasks[1..], t)
  }

  /** Inserting into a newest-first list keeps it newest first. */
  lemma {:induction false} InsertSorted(tasks: seq<Task>, t: Task)
    requires NewestFirst(tasks)
    ensures NewestFirst(Insert(tasks, t))
  {
    if tasks != [] && t.createdAt < tasks[0].createdAt {
      var rest := Insert(tasks[1..], t);
      InsertSorted(tasks[1..], t);
      forall k | 0 <= k < |rest| ensures tasks[0].createdAt >= rest[k].createdAt {
        assert rest[k] in rest;
        if rest[k] != t {
          var m :| 0 <= m < |tasks[1..]| && tasks[1..][m] == rest[k];
          assert tasks[m + 1] == rest[k];
        }
      }
    }
  }

  /** Inserting a task whose id is not yet listed keeps the ids distinct. */
  lemma {:induction false} InsertDistinct(tasks: seq<Task>, t: Task)
    requires DistinctIds(tasks)
    requires forall x :: x in tasks ==> x.id != t.id
    ensures DistinctIds(Insert(tasks, t))
  {
    if tasks != [] && t.createdAt < tasks[0].createdAt {
      var rest := Insert(tasks[1..], t);
      assert forall x :: x in tasks[1..] ==> x in tasks;
      InsertDistinct(tasks[1..], t);
      forall k | 0 <= k < |rest| ensures rest[k].id != tasks[0].id {
        assert rest[k] in rest;
        if rest[k] != t {
          var m :| 0 <= m < |tasks[1..]| && tasks[1..][m] == rest[k];
          assert tasks[m + 1] == rest[k];
        }
      }
    }
  }

  /** `GET /`: every stored task exactly once, newest first. */
  method ListTasks(store: TaskStore) returns (tasks: seq<Task>)
    requires WellKeyed(store)
    ensures NewestFirst(tasks)
    ensures |tasks| == |store|
    ensures forall i :: 0 <= i < |tasks| ==> tasks[i].id in store && store[tasks[i].id] == tasks[i]
    ensures forall id :: id in store ==> store[id] in tasks
    ensures DistinctIds(tasks)
  {
    tasks := [];
    var left := store.Keys;
    while left != {}
      invariant left <= store.Keys
      invariant NewestFirst(tasks)
      invariant |tasks| + |left| == |store|
      invariant forall x :: x in tasks ==> x.id in store.Keys - left && store[x.id] == x
      invariant forall id :: id in store.Keys - left ==> store[id] in tasks
      invariant DistinctIds(tasks)
      decreases |left|
    {
      var id :| id in left;
      InsertSorted(tasks, store[id]);
      InsertDistinct(tasks, store[id]);
      tasks := Insert(tasks, store[id]);
      left := left - {id};
    }
    assert forall i :: 0 <= i < |tasks| ==> tasks[i] in tasks;
  }

  /** `GET /` with its error path: a database fault reaches the 500
      handler; otherwise a 200 with every stored task once, newest first.
      Listing never changes the store. */
  method ListRoute(store: TaskStore, fault: bool) returns (reply: TaskReply)
    requires WellKeyed(store)
    ensures fault ==> reply == Failure
    ensures !fault ==>
      && reply.status == 200 && reply.body.Many?
      && NewestFirst(reply.body.tasks)
      && DistinctIds(reply.body.tasks)
      && |reply.body.tasks| == |store|
      && (forall x :: x in reply.body.tasks <==> x in store.Values)
  {
    if fault {
      return Failure;
    }
    var tasks := ListTasks(store);
    forall x | x in store.Values ensures x in tasks {
      var id :| id in store && store[id] == x;
    }
    forall x | x in tasks ensures x in store.Values {
      var i :| 0 <= i < |tasks| && tasks[i] == x;
      assert store[tasks[i].id] == x;
    }
    reply := TaskReply(200, Many(tasks));
  }

  /** The first task listed is at least as new as every stored task. */
  lemma ListHeadIsNewest(tasks: seq<Task>, store: TaskStore)
    requires NewestFirst(tasks) && |tasks| > 0
    requires forall id :: id in store ==> store[id] in tasks
    ensures forall id :: id in store ==> tasks[0].createdAt >= store[id].createdAt
  {
    forall id | id in store ensures tasks[0].createdAt >= store[id].createdAt {
      var k :| 0 <= k < |tasks| && tasks[k] == store[id];
    }
  }
}

=== FILE: user_model.dfy ===
/**
 * The user schema: a username and an e-mail that are normalised before they
 * are stored or queried, an e-mail validator, the required fields, and the
 * uniqueness of usernames and e-mails across stored users.
 *
 * The validator is the unanchored regular expression `\S+@\S+\.\S+`:
 * somewhere in the text there are non-whitespace characters, an `@`, more
 * non-whitespace characters, a `.`, and more non-whitespace characters.
 */
module UserModel {
  import Strings

  type UserId = string

  /** A stored account. `password` holds the bcrypt hash, never the password. */
  datatype User = User(id: UserId, username: string, email: string, password: string, createdAt: nat)

  /** The username setter: `trim`. The stored username is the piece of the
      one sent that has only whitespace around it and none at its ends. */
  function NormalizeUsername(username: string): (r: string)
    ensures exists i: nat, j: nat :: Strings.TrimmedPiece(username, i, j) && r == username[i..j]
    ensures Strings.Tight(r)
    ensures |r| <= |username|
  {
    Strings.TrimTight(username);
    Strings.Trim(username)
  }

  /** The e-mail setters: `lowercase` and `trim`. The stored e-mail is the
      trimmed piece of the lower-cased address, with no upper-case letter. */
  function NormalizeEmail(email: string): (r: string)
    ensures exists i: nat, j: nat :: Strings.TrimmedPiece(Strings.ToLower(email), i, j) && r == Strings.ToLower(email)[i..j]
    ensures forall k :: 0 <= k < |r| ==> !Strings.IsUpper(r[k])
    ensures Strings.Tight(r)
    ensures |r| <= |email|
  {
    Strings.TrimTight(Strings.ToLower(email));
    Strings.Trim(Strings.ToLower(email))
  }

  lemma ToLowerIdempotent(s: string)
    ensures Strings.ToLower(Strings.ToLower(s)) == Strings.ToLower(s)
  {
  }

  /** Normalising twice is normalising once, so a stored value queried with
      its own normalised form finds itself. */
  lemma NormalizeIdempotent(username: string, email: string)
    ensures NormalizeUsername(NormalizeUsername(username)) == NormalizeUsername(username)
    ensures NormalizeEmail(NormalizeEmail(email)) == NormalizeEmail(email)
  {
    Strings.TrimIdempotent(username);
    var t := Strings.ToLower(email);
    Strings.TrimLowerCommute(t);
    ToLowerIdempotent(email);
    Strings.TrimIdempotent(t);
  }

  /** No character of `s` in [lo, hi) is whitespace: the run matched by `\S+`. */
  predicate NoSpaceIn(s: string, lo: nat, hi: nat)
    requires lo <= hi <= |s|
  {
    forall k :: lo <= k < hi ==> !Strings.IsSpace(s[k])
  }

  /** `s[a..e]` is a match of `\S+@\S+\.\S+`, with the `@` at `b` and the
      `.` at `c`. */
  predicate EmailShape(s: string, a: nat, b: nat, c: nat, e: nat)
  {
    && a < b && b + 1 < c && c + 1 < e <= |s|
    && s[b] == '@' && s[c] == '.'
    && NoSpaceIn(s, a, b) && NoSpaceIn(s, b + 1, c) && NoSpaceIn(s, c + 1, e)
  }

  /** The regular expression finds a match somewhere in `s`. */
  ghost predicate RegexMatches(s: string)
  {
    exists a: nat, b: nat, c: nat, e: nat :: EmailShape(s, a, b, c, e)
  }

  /** A dot at `d` that can close a match whose `@` is at `b`: at least one
      non-whitespace character on each side of it, and none between. */
  predicate DotAt(s: string, b: nat, d: nat)
  {
    && b + 1 < d && d + 1 < |s|
    && s[d] == '.' && !Strings.IsSpace(s[d + 1])
    && NoSpaceIn(s, b + 1, d)
  }

  /** The shortest match around an `@` at `b` and a `.` at `d`. */
  predicate Anchor(s: string, b: nat, d: nat)
  {
    && 0 < b < |s| && s[b] == '@' && !Strings.IsSpace(s[b - 1])
    && DotAt(s, b, d)
  }

  /** Matching reduces to finding an anchor: the `\S+` runs can always be
      shrunk to one character each. */
  lemma RegexMatchesAnchor(s: string)
    ensures RegexMatches(s) <==> exists b: nat, d: nat :: Anchor(s, b, d)
  {
    if RegexMatches(s) {
      var a: nat, b: nat, c: nat, e: nat :| EmailShape(s, a, b, c, e);
      assert Anchor(s, b, c);
    }
    if exists b: nat, d: nat :: Anchor(s, b, d) {
      var b: nat, d: nat :| Anchor(s, b, d);
      assert EmailShape(s, b - 1, b, d, d + 2);
    }
  }

  /** Looks for the closing dot of a match whose `@` is at `b`, having
      already checked that `s[b + 1..c]` holds no whitespace. */
  function DotScan(s: string, b: nat, c: nat): bool
    requires b < c <= |s|
    decreases |s| - c
  {
    if c + 1 >= |s| then false
    else if s[c] == '.' && b + 1 < c && !Strings.IsSpace(s[c + 1]) then true
    else if Strings.IsSpace(s[c]) then false
    else DotScan(s, b, c + 1)
  }

  lemma {:induction false} DotScanCorrect(s: string, b: nat, c: nat)
    requires b < c <= |s|
    requires NoSpaceIn(s, b + 1, c)
    ensures DotScan(s, b, c) <==> exists d: nat :: c <= d && DotAt(s, b, d)
    decreases |s| - c
  {
    if c + 1 >= |s| {
    } else if s[c] == '.' && b + 1 < c && !Strings.IsSpace(s[c + 1]) {
      assert DotAt(s, b, c);
    } else if Strings.IsSpace(s[c]) {
    } else {
      DotScanCorrect(s, b, c + 1);
      if exists d: nat :: c <= d && DotAt(s, b, d) {
        var d: nat :| c <= d && DotAt(s, b, d);
        assert d != c;
      }
    }
  }

  /** Looks for an anchor whose `@` is at `b` or later. */
  function AtScan(s: string, b: nat): bool
    decreases |s| - b
  {
    if b >= |s| then false
    else (0 < b && s[b] == '@' && !Strings.IsSpace(s[b - 1]) && DotScan(s, b, b + 1)) || AtScan(s, b + 1)
  }

  lemma {:induction false} AtScanCorrect(s: string, b: nat)
    ensures AtScan(s, b) <==> exists b': nat, d: nat :: b <= b' && Anchor(s, b', d)
    decreases |s| - b
  {
    if b < |s| {
      AtScanCorrect(s, b + 1);
      if 0 < b && s[b] == '@' && !Strings.IsSpace(s[b - 1]) {
        DotScanCorrect(s, b, b + 1);
        if DotScan(s, b, b + 1) {
          var d: nat :| b + 1 <= d && DotAt(s, b, d);
          assert Anchor(s, b, d);
        }
      }
      if exists b': nat, d: nat :: b <= b' && Anchor(s, b', d) {
        var b': nat, d: nat :| b <= b' && Anchor(s, b', d);
        if b' == b {
          DotScanCorrect(s, b, b + 1);
        }
      }
    }
  }

  /** The schema's e-mail validator, computed by scanning; it accepts exactly
      the texts in which the regular expression finds a match. */
  function IsValidEmail(email: string): (valid: bool)
    ensures valid <==> RegexMatches(email)
  {
    AtScanCorrect(email, 0);
    RegexMatchesAnchor(email);
    AtScan(email, 0)
  }

  /** Every e-mail the schema accepts also passes the route's `'@'` check. */
  lemma ValidEmailHasAt(email: string)
    requires IsValidEmail(email)
    ensures Strings.Includes(email, "@")
  {
    AtScanCorrect(email, 0);
    var b: nat, d: nat :| Anchor(email, b, d);
    assert email[b..b + 1] == "@";
    Strings.IncludesAt(email, "@", b);
  }

  /** ... but not conversely: `a@b` has an `@` and no dot after it, and
      normalising leaves it as it is. */
  lemma AtWithoutDot()
    ensures Strings.Includes("a@b", "@")
    ensures NormalizeEmail("a@b") == "a@b"
    ensures !IsValidEmail("a@b")
  {
    assert Strings.OccursAt("a@b", "@", 1) by {
      assert "a@b"[1..2] == "@";
    }
    Strings.IncludesAt("a@b", "@", 1);
    assert Strings.ToLower("a@b") == "a@b";
    assert Strings.TrimmedPiece("a@b", 0, 3);
    Strings.TrimUnique("a@b", 0, 3);
    AtScanCorrect("a@b", 0);
  }

  /** Lower-casing moves no whitespace, `@` or `.`, so it keeps anchors. */
  lemma AnchorLower(s: string, b: nat, d: nat)
    ensures Anchor(Strings.ToLower(s), b, d) <==> Anchor(s, b, d)
  {
    var t := Strings.ToLower(s);
    if Anchor(s, b, d) {
      assert NoSpaceIn(t, b + 1, d);
    }
    if Anchor(t, b, d) {
      assert NoSpaceIn(s, b + 1, d);
    }
  }

  /** An anchor lies inside the trimmed piece (its characters are not
      whitespace), at the same place relative to it. */
  lemma AnchorTrim(s: string, b: nat, d: nat)
    requires Anchor(s, b, d)
    ensures Strings.TrimStartIndex(s) < b
    ensures d + 2 <= Strings.TrimEndIndex(s)
    ensures Anchor(Strings.Trim(s), b - Strings.TrimStartIndex(s), d - Strings.TrimStartIndex(s))
  {
    var i := Strings.TrimStartIndex(s);
    var j := Strings.TrimEndIndex(s);
    assert Strings.TrimmedPiece(s, i, j);
    var r := Strings.Trim(s);
    assert NoSpaceIn(r, b - i + 1, d - i) by {
      forall k | b - i + 1 <= k < d - i ensures !Strings.IsSpace(r[k]) {
        assert r[k] == s[k + i];
      }
    }
  }

  /** An anchor of the trimmed text is one of the text itself. */
  lemma AnchorUntrim(s: string, b: nat, d: nat)
    requires Anchor(Strings.Trim(s), b, d)
    ensures Anchor(s, b + Strings.TrimStartIndex(s), d + Strings.TrimStartIndex(s))
  {
    var i := Strings.TrimStartIndex(s);
    var r := Strings.Trim(s);
    assert NoSpaceIn(s, b + i + 1, d + i) by {
      forall k | b + i + 1 <= k < d + i ensures !Strings.IsSpace(s[k]) {
        assert s[k] == r[k - i];
      }
    }
  }

  /** A text with an anchor is valid. */
  lemma AnchorValid(s: string, b: nat, d: nat)
    requires Anchor(s, b, d)
    ensures IsValidEmail(s)
  {
    AtScanCorrect(s, 0);
  }

  /** Lower-casing never changes the verdict. */
  lemma LowerValidity(s: string)
    ensures IsValidEmail(Strings.ToLower(s)) <==> IsValidEmail(s)
  {
    AtScanCorrect(s, 0);
    AtScanCorrect(Strings.ToLower(s), 0);
    if IsValidEmail(s) {
      var b: nat, d: nat :| Anchor(s, b, d);
      AnchorLower(s, b, d);
    }
    if IsValidEmail(Strings.ToLower(s)) {
      var b: nat, d: nat :| Anchor(Strings.ToLower(s), b, d);
      AnchorLower(s, b, d);
    }
  }

  lemma TrimKeepsValid(s: string, b: nat, d: nat)
    requires Anchor(s, b, d)
    ensures IsValidEmail(Strings.Trim(s))
  {
    AnchorTrim(s, b, d);
    var i := Strings.TrimStartIndex(s);
    AnchorValid(Strings.Trim(s), b - i, d - i);
  }

  lemma UntrimKeepsValid(s: string, b: nat, d: nat)
    requires Anchor(Strings.Trim(s), b, d)
    ensures IsValidEmail(s)
  {
    AnchorUntrim(s, b, d);
    var i := Strings.TrimStartIndex(s);
    AnchorValid(s, b + i, d + i);
  }

  /** Trimming never changes the verdict. */
  lemma TrimValidity(s: string)
    ensures IsValidEmail(Strings.Trim(s)) <==> IsValidEmail(s)
  {
    AtScanCorrect(s, 0);
    AtScanCorrect(Strings.Trim(s), 0);
    if IsValidEmail(s) {
      var b: nat, d: nat :| Anchor(s, b, d);
      TrimKeepsValid(s, b, d);
    }
    if IsValidEmail(Strings.Trim(s)) {
      var b: nat, d: nat :| Anchor(Strings.Trim(s), b, d);
      UntrimKeepsValid(s, b, d);
    }
  }

  /** Validation sees the same verdict before and after normalisation: the
      setters never turn a valid address invalid or the reverse. */
  lemma NormalizePreservesValidity(email: string)
    ensures IsValidEmail(NormalizeEmail(email)) <==> IsValidEmail(email)
  {
    LowerValidity(email);
    TrimValidity(Strings.ToLower(email));
  }

  /** The schema's checks on the normalised values: all three fields are
      required (an empty string does not satisfy `required`), and the
      e-mail must pass the validator. */
  predicate Admissible(username: string, email: string, password: string)
  {
    username != "" && email != "" && IsValidEmail(email) && password != ""
  }

  /** The unique indexes: no two stored users share a username or an e-mail. */
  predicate Unique(users: seq<User>)
  {
    forall i, j :: 0 <= i < j < |users| ==>
      users[i].username != users[j].username && users[i].email != users[j].email
  }
}

=== FILE: user_routes.dfy ===
/**
 * The account routes: the path-dependent input validator that runs before
 * both handlers, sign-up (conflict check, hashing, save, token) and sign-in
 * (lookup, password comparison, token).
 *
 * The user collection is a sequence in natural (insertion) order, so the
 * "first match" of a lookup is well defined. Password hashing and
 * comparison, token signing and database faults are parameters.
 */
module UserRoutes {
  import opened Common
  import Strings
  import opened UserModel

  const SignupPath: string := "/signup"

  const UsernameError: string := "Username must be at least 3 characters"
  const EmailError: string := "Invalid email address"
  const PasswordLengthError: string := "Password must be at least 6 characters"
  const PasswordRequiredError: string := "Password is required"
  const ValidationFailed: string := "Validation failed"

  const UsernameTaken: string := "Username is not available"
  const EmailTaken: string := "Email is already registered"
  const InvalidCredentials: string := "Invalid credentials"
  const InternalError: string := "Internal server error"
  const Created: string := "User created successfully"
  const LoggedIn: string := "Login successful"

  /** The fields of a request body; `None` is a field that was not sent. */
  datatype Body = Body(username: Option<string>, email: Option<string>, password: Option<string>)

  /** A field JavaScript treats as false: absent or the empty string. */
  predicate Falsy(v: Option<string>)
  {
    v.None? || v.value == ""
  }

  /** Where each validation message sits in the order the validator
      produces them. */
  function Rank(error: string): nat
  {
    if error == UsernameError then 0
    else if error == EmailError then 1
    else if error == PasswordLengthError then 2
    else 3
  }

  predicate BadUsername(body: Body)
  {
    Falsy(body.username) || |body.username.value| < 3
  }

  predicate BadEmail(body: Body)
  {
    Falsy(body.email) || !Strings.Includes(body.email.value, "@")
  }

  predicate ShortPassword(body: Body)
  {
    Falsy(body.password) || |body.password.value| < 6
  }

  /** `validateInput`: the list of everything wrong with the body. On the
      sign-up path the username, the e-mail and the password length are
      checked; on any other path the username and the presence of a
      password. Messages come in that order, each at most once. */
  function ValidateInput(path: string, body: Body): (errors: seq<string>)
    ensures UsernameError in errors <==> BadUsername(body)
    ensures EmailError in errors <==> path == SignupPath && BadEmail(body)
    ensures PasswordLengthError in errors <==> path == SignupPath && ShortPassword(body)
    ensures PasswordRequiredError in errors <==> path != SignupPath && Falsy(body.password)
    ensures forall i :: 0 <= i < |errors| ==>
      errors[i] in {UsernameError, EmailError, PasswordLengthError, PasswordRequiredError}
    ensures forall i, j :: 0 <= i < j < |errors| ==> Rank(errors[i]) < Rank(errors[j])
  {
    var u := if BadUsername(body) then [UsernameError] else [];
    if path == SignupPath then
      u + (if BadEmail(body) then [EmailError] else [])
        + (if ShortPassword(body) then [PasswordLengthError] else [])
    else
      u + (if Falsy(body.password) then [PasswordRequiredError] else [])
  }

  /** Off the sign-up path the e-mail is never looked at. */
  lemma SigninIgnoresEmail(path: string, body: Body, email: Option<string>)
    requires path != SignupPath
    ensures ValidateInput(path, body) == ValidateInput(path, body.(email := email))
  {
  }

  /** A body that passes validation has every field the handler reads. */
  lemma ValidatedFieldsPresent(path: string, body: Body)
    requires ValidateInput(path, body) == []
    ensures body.username.Some? && |body.username.value| >= 3
    ensures body.password.Some? && body.password.value != ""
    ensures path == SignupPath ==>
      && body.email.Some? && Strings.Includes(body.email.value, "@")
      && |body.password.value| >= 6
  {
    assert UsernameError !in ValidateInput(path, body);
  }

  /** What the responses reveal about a user: never the password hash. */
  datatype UserView = UserView(id: UserId, username: string, email: string, createdAt: nat)

  function View(u: User): UserView
  {
    UserView(u.id, u.username, u.email, u.createdAt)
  }

  /** The view is the same whatever the stored hash is. */
  lemma ViewHidesPassword(u: User, password: string)
    ensures View(u) == View(u.(password := password))
    ensures View(u).username == u.username && View(u).email == u.email
  {
  }

  datatype AuthBody =
    | Invalid(errors: seq<string>, message: string)
    | Rejected(message: string)
    | Session(message: string, user: UserView, accessToken: string)

  datatype AuthReply = AuthReply(status: nat, body: AuthBody)

  /** The index of the first user at or after `i` that satisfies `p`. */
  function FirstIndex(users: seq<User>, p: User -> bool, i: nat): (r: Option<nat>)
    requires i <= |users|
    ensures r.Some? ==> i <= r.value < |users| && p(users[r.value])
    ensures r.Some? ==> forall j :: i <= j < r.value ==> !p(users[j])
    ensures r.None? ==> forall j :: i <= j < |users| ==> !p(users[j])
    decreases |users| - i
  {
    if i == |users| then None
    else if p(users[i]) then Some(i)
    else FirstIndex(users, p, i + 1)
  }

  /** The sign-up query `$or: [{username}, {email}]`, with the schema's
      setters applied to the queried values. */
  predicate Collides(u: User, username: string, email: string)
  {
    u.username == NormalizeUsername(username) || u.email == NormalizeEmail(email)
  }

  function FindConflict(users: seq<User>, username: string, email: string): Option<nat>
  {
    FirstIndex(users, (u: User) => Collides(u, username, email), 0)
  }

  /** The sign-in query `{username}`, setter applied. */
  function FindByUsername(users: seq<User>, username: string): Option<nat>
  {
    FirstIndex(users, (u: User) => u.username == NormalizeUsername(username), 0)
  }

  /** The conflict message as written: it compares the stored username with
      the username exactly as sent, untrimmed. */
  function ConflictMessage(existing: User, username: string): (m: string)
    ensures m == UsernameTaken <==> existing.username == username
    ensures m == EmailTaken <==> existing.username != username
  {
    if existing.username == username then UsernameTaken else EmailTaken
  }

  /** The conflict message as intended: compared with the username as it
      was queried and would be stored. */
  function IntendedConflictMessage(existing: User, username: string): string
  {
    if existing.username == NormalizeUsername(username) then UsernameTaken else EmailTaken
  }

  /** The intended message always names a field that really collided, and
      it names the username exactly when the usernames collided. */
  lemma IntendedConflictNamesCollision(existing: User, username: string, email: string)
    requires Collides(existing, username, email)
    ensures IntendedConflictMessage(existing, username) == UsernameTaken
      <==> existing.username == NormalizeUsername(username)
    ensures IntendedConflictMessage(existing, username) == EmailTaken
      ==> existing.email == NormalizeEmail(email)
  {
  }

  /** The two messages differ only for a username sent with surrounding
      whitespace: when trimming leaves it as it is, they agree. */
  lemma ConflictMessagesAgreeOnTrimmed(existing: User, username: string)
    requires Strings.Trim(username) == username
    ensures ConflictMessage(existing, username) == IntendedConflictMessage(existing, username)
  {
  }

  /** The setters' effect on the example values used below: a leading
      space is dropped, and values already in normal form stay as they are. */
  lemma ExampleUsernames()
    ensures NormalizeUsername(" bob") == "bob"
    ensures NormalizeUsername("alice") == "alice"
  {
    assert Strings.TrimmedPiece(" bob", 1, 4);
    Strings.TrimUnique(" bob", 1, 4);
    assert " bob"[1..4] == "bob";
    assert Strings.TrimmedPiece("alice", 0, 5);
    Strings.TrimUnique("alice", 0, 5);
  }

  lemma ExampleEmail()
    ensures NormalizeEmail("al@x.io") == "al@x.io"
  {
    var t := Strings.ToLower("al@x.io");
    assert t == "al@x.io";
    assert Strings.TrimmedPiece(t, 0, 7);
    Strings.TrimUnique(t, 0, 7);
  }

  /** As written, a username sent with a leading space collides on the
      username yet is told its e-mail is taken, though the e-mail is not. */
  lemma ConflictMessageMisnames()
    ensures var existing := User("1", "bob", "bob@x.io", "h", 0);
      && Collides(existing, " bob", "al@x.io")
      && existing.email != NormalizeEmail("al@x.io")
      && ConflictMessage(existing, " bob") == EmailTaken
      && IntendedConflictMessage(existing, " bob") == UsernameTaken
  {
    ExampleUsernames();
    ExampleEmail();
  }

  /** What the sign-up handler depends on besides the users and the body:
      the hash function, the new document's id and time, the signed token,
      and faults of the lookup, the save and the token signing. */
  datatype SignupEnv = SignupEnv(
    hash: string -> string,
    newId: UserId,
    now: nat,
    accessToken: string,
    lookupFault: bool,
    saveFault: bool,
    tokenFault: bool)

  datatype SignupResult = SignupResult(reply: AuthReply, users: seq<User>)

  /** The document sign-up tries to save. */
  function NewUser(username: string, email: string, password: string, env: SignupEnv): User
  {
    User(env.newId, NormalizeUsername(username), NormalizeEmail(email), env.hash(password), env.now)
  }

  /** The sign-up handler proper, on a body that passed validation. A
      conflict is a 409 whose message compares the username as sent; a
      failure of any awaited step is a 500; a token failure comes after
      the save, so the account exists although the reply is a 500. */
  function Register(users: seq<User>, username: string, email: string, password: string, env: SignupEnv): (r: SignupResult)
    ensures r.reply.status in {201, 409, 500}
    ensures r.reply.status == 409 <==> !env.lookupFault && FindConflict(users, username, email).Some?
    ensures r.reply.status == 409 ==>
      var k := FindConflict(users, username, email).value;
      r.reply.body == Rejected(ConflictMessage(users[k], username))
    ensures r.reply.status == 500 ==> r.reply.body == Rejected(InternalError)
    ensures r.users == users || r.users == users + [NewUser(username, email, password, env)]
    ensures r.users != users <==>
      && !env.lookupFault
      && FindConflict(users, username, email).None?
      && (var n := NewUser(username, email, password, env);
          Admissible(n.username, n.email, n.password))
      && !env.saveFault
    ensures r.reply.status == 201 <==> r.users != users && !env.tokenFault
    ensures r.reply.status == 201 ==>
      r.reply.body == Session(Created, View(NewUser(username, email, password, env)), env.accessToken)
  {
    if env.lookupFault then
      SignupResult(AuthReply(500, Rejected(InternalError)), users)
    else
      match FindConflict(users, username, email)
      case Some(k) =>
        SignupResult(AuthReply(409, Rejected(ConflictMessage(users[k], username))), users)
      case None =>
        var user := NewUser(username, email, password, env);
        if !Admissible(user.username, user.email, user.password) || env.saveFault then
          SignupResult(AuthReply(500, Rejected(InternalError)), users)
        else if env.tokenFault then
          SignupResult(AuthReply(500, Rejected(InternalError)), users + [user])
        else
          SignupResult(AuthReply(201, Session(Created, View(user), env.accessToken)), users + [user])
  }

  /** The request paths the router hands to the sign-up handler. Express
      routers match case-insensitively and accept one trailing slash, and
      `req.path` is the path as sent, so "/signup/" and "/SignUp" reach the
      handler although the validator tests for "/signup" exactly. The exact
      path, which lower-casing leaves as it is, is listed first. */
  predicate SignupRoute(path: string)
  {
    || path == SignupPath
    || Strings.ToLower(path) == SignupPath
    || Strings.ToLower(path) == SignupPath + "/"
  }

  /** The e-mail the handler reads. Off the exact sign-up path the validator
      does not require one; an absent e-mail is read as the empty string,
      which no stored user has and the schema refuses, as it refuses a
      missing one. */
  function SentEmail(body: Body): string
  {
    if body.email.Some? then body.email.value else ""
  }

  /** The validator on the path the request came in on, then the handler.
      Only on the exact path "/signup" are the e-mail and the password
      length checked. */
  function Signup(users: seq<User>, path: string, body: Body, env: SignupEnv): (r: SignupResult)
    requires SignupRoute(path)
    ensures r.reply.status == 400 <==> ValidateInput(path, body) != []
    ensures r.reply.status == 400 ==>
      r.reply.body == Invalid(ValidateInput(path, body), ValidationFailed) && r.users == users
    ensures r.reply.status != 400 ==>
      && body.username.Some? && body.password.Some?
      && r == Register(users, body.username.value, SentEmail(body), body.password.value, env)
    ensures r.reply.status != 400 && path == SignupPath ==>
      && body.email.Some? && Strings.Includes(body.email.value, "@")
      && |body.password.value| >= 6
  {
    var errors := ValidateInput(path, body);
    if errors != [] then
      SignupResult(AuthReply(400, Invalid(errors, ValidationFailed)), users)
    else
      ValidatedFieldsPresent(path, body);
      Register(users, body.username.value, SentEmail(body), body.password.value, env)
  }

  /** As written, a trailing slash skips the sign-up rules: a one-character
      password is refused on "/signup" but goes on to the handler on
      "/signup/", which saves the account when nothing else stops it. */
  lemma SlashBypassesSignupRules(users: seq<User>, env: SignupEnv)
    ensures SignupRoute(SlashPath)
    ensures ValidateInput(SignupPath, ShortPasswordBody) == [PasswordLengthError]
    ensures Signup(users, SignupPath, ShortPasswordBody, env).reply.status == 400
    ensures ValidateInput(SlashPath, ShortPasswordBody) == []
    ensures Signup(users, SlashPath, ShortPasswordBody, env) == Register(users, "bob", "b@x.io", "a", env)
  {
    SlashRoutes();
    ShortPasswordFaults();
  }

  /** The sign-up path with a trailing slash, and a body whose only fault
      is a one-character password. */
  const SlashPath: string := "/signup/"
  const ShortPasswordBody: Body := Body(Some("bob"), Some("b@x.io"), Some("a"))

  /** The example body fails the sign-up rules on the password length only. */
  lemma ShortPasswordFaults()
    ensures !BadUsername(ShortPasswordBody) && !BadEmail(ShortPasswordBody)
    ensures ShortPassword(ShortPasswordBody) && !Falsy(ShortPasswordBody.password)
  {
    assert Strings.OccursAt("b@x.io", "@", 1) by {
      assert "b@x.io"[1..2] == "@";
    }
    Strings.IncludesAt("b@x.io", "@", 1);
  }

  lemma SlashRoutes()
    ensures SignupRoute(SlashPath) && SlashPath != SignupPath
  {
    assert Strings.ToLower(SlashPath) == SlashPath;
    assert SlashPath[7] != SignupPath[6];
  }

  /** Sign-up as evidently intended: the sign-up rules on every path that
      reaches the handler. No account is then made without an e-mail that
      contains "@" and a password of at least six characters, and the reply
      does not depend on how the path was spelled. */
  function IntendedSignup(users: seq<User>, path: string, body: Body, env: SignupEnv): (r: SignupResult)
    requires SignupRoute(path)
    ensures r.reply.status == 400 <==> ValidateInput(SignupPath, body) != []
    ensures r.reply.status != 400 ==>
      && body.email.Some? && Strings.Includes(body.email.value, "@")
      && body.password.Some? && |body.password.value| >= 6
    ensures r.users != users ==> r.reply.status != 400
  {
    Signup(users, SignupPath, body, env)
  }

  /** On the exact path the intended and the as-written handlers agree. */
  lemma IntendedSignupAgrees(users: seq<User>, body: Body, env: SignupEnv)
    ensures IntendedSignup(users, SignupPath, body, env) == Signup(users, SignupPath, body, env)
  {
  }

  /** The handler keeps usernames and e-mails unique: what it saves collides
      with nobody, because the lookup used the values it stores. */
  lemma RegisterKeepsUnique(users: seq<User>, username: string, email: string, password: string, env: SignupEnv)
    requires Unique(users)
    ensures Unique(Register(users, username, email, password, env).users)
  {
    var r := Register(users, username, email, password, env);
    if r.users != users {
      var n := NewUser(username, email, password, env);
      assert forall j :: 0 <= j < |users| ==> !Collides(users[j], username, email);
      forall i, j | 0 <= i < j < |r.users|
        ensures r.users[i].username != r.users[j].username && r.users[i].email != r.users[j].email
      {
        if j == |users| {
          assert r.users[j] == n;
          assert !Collides(users[i], username, email);
        }
      }
    }
  }

  /** Sign-up keeps usernames and e-mails unique, on every path that
      reaches the handler. */
  lemma SignupKeepsUnique(users: seq<User>, path: string, body: Body, env: SignupEnv)
    requires Unique(users)
    requires SignupRoute(path)
    ensures Unique(Signup(users, path, body, env).users)
  {
    if ValidateInput(path, body) == [] {
      RegisterKeepsUnique(users, body.username.value, SentEmail(body), body.password.value, env);
    }
  }

  /** An address with an `@` passes the route's check, yet the schema's
      validator can still refuse it, and then the reply is a 500, not a 400. */
  lemma SchemaRefusalIs500(users: seq<User>, env: SignupEnv)
    requires !env.lookupFault
    requires forall j :: 0 <= j < |users| ==> users[j].username != "alice" && users[j].email != "a@b"
    ensures Signup(users, SignupPath, Body(Some("alice"), Some("a@b"), Some("secret1")), env).reply
      == AuthReply(500, Rejected(InternalError))
  {
    var body := Body(Some("alice"), Some("a@b"), Some("secret1"));
    AtWithoutDot();
    ExampleUsernames();
    assert FindConflict(users, "alice", "a@b").None? by {
      assert forall j :: 0 <= j < |users| ==> !Collides(users[j], "alice", "a@b");
    }
    assert ValidateInput(SignupPath, body) == [] by {
      assert !BadEmail(body);
    }
    var n := NewUser("alice", "a@b", "secret1", env);
    assert !Admissible(n.username, n.email, n.password);
    var r := Register(users, "alice", "a@b", "secret1", env);
    assert r.users == users;
  }

  /** What the sign-in handler depends on: the hash comparison, the signed
      token, and faults of the lookup and the token signing. */
  datatype SigninEnv = SigninEnv(
    compare: (string, string) -> bool,
    accessToken: string,
    lookupFault: bool,
    tokenFault: bool)

  /** The validator on the sign-in path, then the handler. Sign-in never
      changes the users. A failed lookup or token signing lands in the
      handler's catch and gives 500; only a found user whose password
      matches, with both steps working, gets a session. */
  function Signin(users: seq<User>, body: Body, env: SigninEnv): (r: AuthReply)
    ensures r.status in {200, 400, 401, 500}
    ensures r.status == 400 <==> ValidateInput("/signin", body) != []
    ensures r.status == 401 <==>
      && ValidateInput("/signin", body) == [] && !env.lookupFault
      && var k := FindByUsername(users, body.username.value);
         k.None? || !env.compare(body.password.value, users[k.value].password)
    ensures r.status == 401 ==> r.body == Rejected(InvalidCredentials)
    ensures r.status == 400 ==> r.body == Invalid(ValidateInput("/signin", body), ValidationFailed)
    ensures r.status == 500 ==> r.body == Rejected(InternalError)
    ensures r.status == 500 <==>
      && ValidateInput("/signin", body) == []
      && (|| env.lookupFault
          || var k := FindByUsername(users, body.username.value);
             k.Some? && env.compare(body.password.value, users[k.value].password) && env.tokenFault)
    ensures r.status == 200 <==>
      && ValidateInput("/signin", body) == [] && !env.lookupFault && !env.tokenFault
      && var k := FindByUsername(users, body.username.value);
         k.Some? && env.compare(body.password.value, users[k.value].password)
    ensures r.status == 200 ==>
      var k := FindByUsername(users, body.username.value);
      && k.Some?
      && users[k.value].username == NormalizeUsername(body.username.value)
      && env.compare(body.password.value, users[k.value].password)
      && r.body == Session(LoggedIn, View(users[k.value]), env.accessToken)
  {
    var errors := ValidateInput("/signin", body);
    if errors != [] then AuthReply(400, Invalid(errors, ValidationFailed))
    else if env.lookupFault then AuthReply(500, Rejected(InternalError))
    else match FindByUsername(users, body.username.value)
      case None => AuthReply(401, Rejected(InvalidCredentials))
      case Some(k) =>
        if !env.compare(body.password.value, users[k].password) then AuthReply(401, Rejected(InvalidCredentials))
        else if env.tokenFault then AuthReply(500, Rejected(InternalError))
        else AuthReply(200, Session(LoggedIn, View(users[k]), env.accessToken))
  }

  /** An unknown username and a wrong password get the very same reply, so
      the reply does not reveal which usernames exist. */
  lemma SigninUniform(users1: seq<User>, users2: seq<User>, body: Body, env: SigninEnv)
    requires ValidateInput("/signin", body) == [] && !env.lookupFault
    requires FindByUsername(users1, body.username.value).None?
    requires var k := FindByUsername(users2, body.username.value);
      k.Some? && !env.compare(body.password.value, users2[k.value].password)
    ensures Signin(users1, body, env) == Signin(users2, body, env)
    ensures Signin(users1, body, env) == AuthReply(401, Rejected(InvalidCredentials))
  {
  }

  /** A username held by nobody but the user appended last is found at
      the end. */
  lemma FindAppended(users: seq<User>, n: User, username: string)
    requires forall j :: 0 <= j < |users| ==> users[j].username != NormalizeUsername(username)
    requires n.username == NormalizeUsername(username)
    ensures FindByUsername(users + [n], username) == Some(|users|)
  {
    assert (users + [n])[|users|] == n;
  }

  /** Sign-in succeeds once its body is valid, the username is found and
      the password matches. */
  lemma SigninFinds(users: seq<User>, body: Body, env: SigninEnv, k: nat)
    requires ValidateInput("/signin", body) == []
    requires !env.lookupFault && !env.tokenFault
    requires body.username.Some? && body.password.Some?
    requires FindByUsername(users, body.username.value) == Some(k)
    requires env.compare(body.password.value, users[k].password)
    ensures Signin(users, body, env) == AuthReply(200, Session(LoggedIn, View(users[k]), env.accessToken))
  {
  }

  /** Signing in with the sign-up credentials of a fresh account finds that
      account, provided the hash comparison accepts the password; this holds
      on every path that reaches the sign-up handler. */
  lemma SignupThenSignin(users: seq<User>, path: string, body: Body, env: SignupEnv, senv: SigninEnv)
    requires SignupRoute(path)
    requires ValidateInput(path, body) == []
    requires body.username.Some? && body.password.Some?
    requires Register(users, body.username.value, SentEmail(body), body.password.value, env).reply.status == 201
    requires !senv.lookupFault && !senv.tokenFault
    requires senv.compare(body.password.value, env.hash(body.password.value))
    ensures Signin(Signup(users, path, body, env).users, body, senv)
      == AuthReply(200, Session(LoggedIn, View(NewUser(body.username.value, SentEmail(body), body.password.value, env)), senv.accessToken))
  {
    var u, e, p := body.username.value, SentEmail(body), body.password.value;
    var n := NewUser(u, e, p, env);
    var users' := Register(users, u, e, p, env).users;
    assert ValidateInput("/signin", body) == [] by {
      ValidatedFieldsPresent(path, body);
    }
    assert FindByUsername(users', u) == Some(|users|) by {
      assert forall j :: 0 <= j < |users| ==> !Collides(users[j], u, e);
      FindAppended(users, n, u);
    }
    assert users'[|users|] == n;
    SigninFinds(users', body, senv, |users|);
  }
}
